=== FILE: README.md ===
# LitKit core, modelled in Dafny

LitKit is a Streamlit boilerplate with Supabase authentication and Stripe
payments. Its pages are mostly templating. Underneath them sits a small
amount of deterministic logic, and this project models that logic and
proves properties about it:

- **Session authentication** (`Auth`, `AuthUi`, `SessionState`).
  - The demo sign-in, sign-out, sign-up, password-reset and social-login
    helpers are transitions over the session store.
  - The login, sign-up and reset forms validate their input before calling
    those helpers.
  - The profile view, and the `auth_required` gate that runs a page function
    only for an authenticated session.
- **Billing** (`Tables`, `PaymentsDb`, `Webhook`).
  - The Supabase tables are values: subscription and payment rows as
    sequences, and credit balances as a map from user id to amount.
  - The database helpers pick the latest subscription and decide whether it
    is active. They update status, create rows, and keep the credit ledger.
  - The Stripe webhook edge function maps a request and the database to the
    new database and an HTTP response.
- **Configuration** (`StripeClient`, `Checkout`, `SupabaseHelpers`).
  - Stripe key selection from the secrets file or the environment.
  - Checkout settings precedence, argument overrides, validation order and the
    parameters of the checkout session.
  - The Supabase configuration report.
- **Placeholder subscriptions** (`Subscription`, `SubscriptionUi`).
  - The stub subscription lookups and the plan list.
  - The subscription gate, which has a blocking mode and an advisory mode.
    `st.stop()` is the `Halt` outcome.
- **Small helpers** (`UiUtils`, `Base`, `Features`, `ErrorHandling`).
  - HTML escaping and the tooltip.
  - The component key counter and the HTML tag builder.
  - The feature-grid column clamp and round-robin placement.
  - Error-message selection.

Everything outside the process is a parameter. The parameters are:

- whether the Supabase client exists (`configured`, `clientPresent`);
- the secrets file and the environment, as string maps;
- whether the `stripe` package imported;
- the webhook's signature-verification outcome;
- `stripe.subscriptions.retrieve`, as the function `retrieve`;
- the set of database writes that fail in a run (`fails`);
- the current instant, as an integer, and the current ISO string `now`;
- ISO formatting and parsing, as the functions `toIso` and `parse`;
- the traceback text;
- which buttons were pressed and what was typed into the forms.

Python's `None` is `Option.None`. Python truthiness of strings is
`Common.Truthy`: `None` and `""` are false. Integers are unbounded. The
webhook's `Math.floor(x / 100)` is Dafny's `x / 100`, which rounds down for
every `x` because the divisor is positive.

Three behaviours of the authentication code are easy to misread; the model
follows the code:

- `get_user`'s docstring (litkit/auth/auth.py:27) promises None for an
  unauthenticated session, yet the code returns whatever user is stored,
  without consulting the `authenticated` flag (`Auth.GetUserIgnoresAuthenticated`).
- `sign_out` returns at once when the Supabase client is missing
  (litkit/auth/auth.py:96-97), so a signed-in session stays signed in
  (`Auth.SignOutWithoutClientKeepsUser`).
- `sign_in` stores whatever email it is given, empty or not
  (litkit/auth/auth.py:77-85). Only `login_form` rejects empty fields
  (`Auth.SignInStoresEmail`, `AuthUi.LoginForm`).

Unlike the other two subscription events, `customer.subscription.deleted`
performs no lookup first. An unknown subscription id therefore still answers
200 (`Webhook.SubscriptionDeleted`).

## Model

| member | source | states |
|---|---|---|
| Auth.IsAuthenticated | litkit/auth/auth.py:12-19 | an absent `authenticated` key means not authenticated; authenticated only when the flag is stored as true |
| Auth.GetUserIgnoresAuthenticated | litkit/auth/auth.py:22-29 | the user returned does not depend on the `authenticated` flag; a stored user is returned even for an unauthenticated session |
| Auth.FreshSessionIsAnonymous | litkit/auth/auth.py:12-29 | a store with no keys is unauthenticated and has no user |
| Auth.SignUp | litkit/auth/auth.py:32-54 | succeeds iff the client exists; without one the message is "Supabase client is not configured"; takes no session |
| Auth.SignIn | litkit/auth/auth.py:57-89 | without a client: session unchanged and `(False, "Supabase client is not configured")`; with one: authenticated, the mock user with the given email stored, success |
| Auth.SignInStoresEmail | litkit/auth/auth.py:77-87 | after a configured sign-in the stored email is the argument, the empty string included |
| Auth.SignOut | litkit/auth/auth.py:92-110 | with a client both keys are removed and the session is anonymous; without one the session is unchanged |
| Auth.SignOutIdempotent | litkit/auth/auth.py:105-108 | signing out twice equals signing out once |
| Auth.SignOutWithoutClientKeepsUser | litkit/auth/auth.py:96-97 | without a client a signed-in session stays authenticated with its user |
| Auth.SignInSignOutCycle | litkit/auth/auth.py:77-108 | from a fresh store: sign-in authenticates, sign-out makes it anonymous with no user |
| Auth.ResetPassword | litkit/auth/auth.py:113-133 | succeeds iff the client exists; the success message names the address |
| Auth.SocialSignIn | litkit/auth/auth.py:136-163 | succeeds iff a client exists and the lower-cased provider is google, github, facebook or twitter; an unsupported provider is named in the message |
| Auth.SocialSignInIgnoresCase | litkit/auth/auth.py:151-153 | acceptance is decided on the lower-cased name: a name and its lower-cased form, or two names that lower-case alike, are accepted or refused together |
| Auth.SocialSignInExamples | litkit/auth/auth.py:143-153 | "GitHub" is accepted; nothing is accepted without a client |
| Auth.UnsupportedProviderRefused | litkit/auth/auth.py:151-153 | "gitlab" is refused |
| Auth.KelvinSignProviderAccepted | litkit/auth/auth.py:151-153 | "faceboo" followed by U+212A KELVIN SIGN lower-cases to "facebook" and is accepted |
| AuthUi.LoginForm | litkit/components/auth_ui.py:19-44 | `sign_in` is called only when submitted with both fields non-empty; otherwise an error is shown and False returned with the session unchanged; the result is true iff `sign_in` succeeded |
| AuthUi.LoginFormSignsIn | litkit/components/auth_ui.py:33-42 | with a client, a filled-in submitted form authenticates the session with the given email |
| AuthUi.SignupForm | litkit/components/auth_ui.py:47-83 | empty fields are rejected before the confirmation is checked; a mismatch is rejected without calling `sign_up`; the result is true iff `sign_up` is called and succeeds; the session is never changed |
| AuthUi.ResetPasswordForm | litkit/components/auth_ui.py:86-109 | an unsubmitted form does nothing; an empty email shows its error and calls nothing; a submitted address is passed to `reset_password` exactly once and its message is shown as success or error according to its flag; the result is true iff submitted, non-empty and configured |
| AuthUi.UserProfile | litkit/components/auth_ui.py:142-162 | unauthenticated: "not logged in" and session unchanged; no user: nothing; otherwise the profile, with the email line from the stored email; pressing "Sign Out" signs out and requests a rerun |
| AuthUi.UserProfileIgnoresUserWhenAnonymous | litkit/components/auth_ui.py:146-152 | for an unauthenticated session the stored user has no influence on the view |
| AuthUi.ProfileOfDemoUser | litkit/components/auth_ui.py:153-158 | the demo user's profile shows its email and "Name: Demo User" |
| AuthUi.AuthRequired | litkit/components/auth_ui.py:165-184 | authenticated: the wrapped function runs and its result is returned; otherwise the world is unchanged, None is returned, the session is the login form's, and the notices are the login prompt followed by the login form's own notices |
| AuthUi.AuthRequiredRunsOnce | litkit/components/auth_ui.py:176-182 | with a counting function, the count grows by exactly one when authenticated and not at all otherwise |
| AuthUi.AuthRequiredLoginStillReturnsNone | litkit/components/auth_ui.py:178-182 | a login through the gate authenticates the session, yet this call still returns None |
| PaymentsDb.LatestStaysLatest | litkit/database/payments_db.py:33-38 | if row k is maximal in the tail and row 0 is not older than row k, row 0 is maximal overall |
| PaymentsDb.MostRecentIndex | litkit/database/payments_db.py:33-38 | the picked row has a maximal `created_at` (absent sorts as "") and every earlier row has a strictly smaller one, as a stable reverse sort gives |
| PaymentsDb.GetUserSubscription | litkit/database/payments_db.py:13-41 | None without a client or when the user has no row; otherwise one of the user's rows with maximal `created_at` |
| PaymentsDb.GetUserSubscriptionSingleRow | litkit/database/payments_db.py:29-38 | a single row is returned even without `created_at` |
| PaymentsDb.HasActiveSubscription | litkit/database/payments_db.py:158-187 | false without a subscription or with a status other than "active"; with a period end, true iff it parses and lies after now; with no period end, true |
| PaymentsDb.ActiveAtEarlierInstant | litkit/database/payments_db.py:177-182 | active at some instant implies active at every earlier instant |
| PaymentsDb.ExpiredActiveIsInactive | litkit/database/payments_db.py:177-182 | an "active" row whose period end is not after now is not active |
| PaymentsDb.UpdateSubscriptionStatus | litkit/database/payments_db.py:102-142 | without a client nothing changes and False; otherwise matching rows get the status, the period end only when one is given, and no other column except the update stamp; other rows and tables unchanged; true iff a row matched |
| PaymentsDb.CancelSubscription | litkit/database/payments_db.py:145-155 | exactly the status update with "canceled" and no period end; the period end is kept |
| PaymentsDb.CanceledUserIsInactive | litkit/database/payments_db.py:145-187 | after cancelling the id every row of a user carries, that user has no active subscription |
| PaymentsDb.CreateSubscription | litkit/database/payments_db.py:44-99 | appends one row with the given ids and status, stamped with now; nothing else changes; without a client nothing happens |
| PaymentsDb.CreatedSubscriptionIsLatest | litkit/database/payments_db.py:13-99 | a created row becomes the user's latest subscription when its stamp sorts after all earlier ones |
| PaymentsDb.CreatePaymentRecord | litkit/database/payments_db.py:315-361 | appends one payment row with the given amount, type, status and user; nothing else changes |
| PaymentsDb.GetUserCredits | litkit/database/payments_db.py:192-227 | returns the stored balance, or 0; a new user gets a row holding 0 when the insert is accepted; no balance changes |
| PaymentsDb.AddCredits | litkit/database/payments_db.py:230-269 | stores and returns balance + amount; -1 without a client or without a row to update; other users unchanged |
| PaymentsDb.UseCredits | litkit/database/payments_db.py:272-312 | succeeds iff a client exists, a row exists or can be created, and the balance covers the amount; then the balance drops by the amount and stays non-negative; on failure no balance changes |
| PaymentsDb.UseCreditsKeepsLedgerNonNegative | litkit/database/payments_db.py:289-306 | debiting preserves "every balance is non-negative" |
| PaymentsDb.UseAfterAddRestoresBalance | litkit/database/payments_db.py:230-312 | adding then using the same non-negative amount succeeds and restores the balance |
| PaymentsDb.AddCreditsSuccessCanReturnMinusOne | litkit/database/payments_db.py:258-266 | a successful add of -1 to a zero balance returns -1, the failure value |
| Tables.RowsOf | litkit/database/payments_db.py:29-31 | exactly the user's rows |
| Tables.UpdateWhere | litkit/database/payments_db.py:124-139 | rows carrying the id are patched in place and all other rows are untouched |
| Webhook.WhereHasOne | supabase/functions/stripe-webhook/index.ts:62-74 | a `.eq` filter keeps exactly one row iff exactly one index of the table matches, which is the condition under which `.single()` succeeds |
| Webhook.SingleUserId | supabase/functions/stripe-webhook/index.ts:62-74 | an id is returned iff exactly one user row carries the email, and it is that row's id; zero or several such rows give none (the 404 path) |
| Webhook.SingleOwner | supabase/functions/stripe-webhook/index.ts:196-204 | an owner is returned iff exactly one subscription row carries the id, and it is that row's user; zero or several rows give none (the 404 path) |
| Webhook.CreditsFor | supabase/functions/stripe-webhook/index.ts:98-100 | the credits c satisfy 100c <= amount < 100c + 100, which is floor(amount / 100) |
| Webhook.GrantCredits | supabase/functions/stripe-webhook/index.ts:101-139 | on success the balance grows by the amount, a user without a row gets exactly the amount, and other users are unchanged; a failed write gives 500 and changes nothing |
| Webhook.CheckoutCompleted | supabase/functions/stripe-webhook/index.ts:52-180 | no email: 400, nothing written; unknown customer: 404, nothing written; subscription mode with a subscription id: a failed retrieve answers 500 "Webhook error: " + reason with nothing written, a rejected insert answers 500 "Error creating subscription record" with nothing written, otherwise exactly the row built from the retrieved subscription is appended and 200 returned; payment mode: a rejected payment insert answers 500 with nothing written, and with an absent or zero amount exactly the "succeeded"/"one-time" row is appended and 200 returned with credits untouched; any other mode, or subscription mode without an id, answers 200 with nothing written; the users table is never written |
| Webhook.InvoicePaid | supabase/functions/stripe-webhook/index.ts:182-245 | no subscription on the invoice: 200 and nothing written; a failed retrieve answers 500 "Webhook error: " + reason with nothing written; no single row with the id: 404, nothing written; a rejected update: 500 with nothing written; otherwise the rows with the id get status, period start, period end and stamp, every other row is kept, and then a rejected payment insert answers 500 with those rows already refreshed, or else the "subscription" payment row is appended after the existing ones; credits are never touched |
| Webhook.SubscriptionUpdated | supabase/functions/stripe-webhook/index.ts:247-281 | no row, or several rows, with the id (`.single()`): 404 and nothing written; a rejected update: 500 and nothing written; otherwise the rows with the id get status, cancel flag, period end and stamp, and every other row is kept; only the subscriptions table can change |
| Webhook.SubscriptionDeleted | supabase/functions/stripe-webhook/index.ts:283-303 | answers 200, or 500 when the update fails and nothing is written; only the subscriptions table can change |
| Webhook.Handle | supabase/functions/stripe-webhook/index.ts:16-315 | missing signature: 400; failed verification: 400 with the reason; the status is always 200, 400, 404 or 500; 400 and 404 write nothing; an unhandled event type answers 200 `{"received":true}` |
| Webhook.UnknownTypeChangesNothing | supabase/functions/stripe-webhook/index.ts:304-310 | any event type other than the four handled ones leaves the database unchanged and answers 200 |
| Webhook.OneTimeCheckoutGrantsCredits | supabase/functions/stripe-webhook/index.ts:79-139 | a paid one-time checkout appends a "succeeded"/"one-time" payment row and adds floor(amount_total / 100) credits; a new user's row holds exactly that; other users and subscriptions are unchanged |
| Webhook.SubscriptionCheckoutRecordsRow | supabase/functions/stripe-webhook/index.ts:144-177 | for every retrieved status: an accepted insert appends exactly the new subscription row and leaves payments, credits and users unchanged; a rejected one answers 500 and writes nothing |
| Webhook.CheckoutRetrieveFailureIsServerError | supabase/functions/stripe-webhook/index.ts:311-314 | a failed `stripe.subscriptions.retrieve` during a subscription checkout (index.ts:153) answers 500 "Webhook error: " + reason and writes nothing |
| Webhook.InvoiceRetrieveFailureIsServerError | supabase/functions/stripe-webhook/index.ts:311-314 | a failed retrieve for an invoice (index.ts:192) answers 500 "Webhook error: " + reason, before any lookup or write |
| Webhook.PaymentRowPrecedesCredits | supabase/functions/stripe-webhook/index.ts:79-95 | a failed payment insert answers 500 before any credit is touched |
| Webhook.CreditFailureKeepsPaymentRow | supabase/functions/stripe-webhook/index.ts:79-139 | a failed credits write answers 500, yet the payment row stays |
| Webhook.InvoiceRenewsSubscription | supabase/functions/stripe-webhook/index.ts:186-241 | with no rejected write, the subscription's rows get exactly the new status, period start, period end and stamp, every other row is kept, the payments are the old ones plus one "subscription" row, and credits and users are untouched |
| Webhook.InvoiceFailuresAreNotAtomic | supabase/functions/stripe-webhook/index.ts:208-241 | a rejected update answers 500 with nothing written; a rejected payment insert answers 500 with no payment row but the subscription rows already refreshed |
| Webhook.InvoiceUnknownSubscription | supabase/functions/stripe-webhook/index.ts:196-204 | an unknown subscription answers 404 and writes nothing |
| Webhook.UpdatedEventCopiesFields | supabase/functions/stripe-webhook/index.ts:257-271 | status, `cancel_at_period_end` and `current_period_end` are copied into matching rows with the update stamp, every other column and every other row is kept, and no other table changes |
| Webhook.UpdatedEventDuplicateIdNotFound | supabase/functions/stripe-webhook/index.ts:250-260 | an id carried by two rows is refused by `.single()`: 404 and nothing written |
| Webhook.DeletedEventOnlyCancels | supabase/functions/stripe-webhook/index.ts:287-293 | matching rows change only in status ("canceled") and update stamp; every other row and table is unchanged |
| Webhook.DeletedSubscriptionIsInactive | supabase/functions/stripe-webhook/index.ts:283-303 | after the deletion event, a user all of whose rows carry that id has no active subscription (`has_active_subscription`) |
| Webhook.SubscriptionCheckoutActivates | supabase/functions/stripe-webhook/index.ts:145-177 | a subscription checkout with an active subscription that ends in the future makes the customer subscribed, given the ISO parse inverts the formatting |
| StripeClient.GetStripeKey | litkit/payments/stripe_client.py:26-46 | a key found comes from the `stripe` secrets section when there is one, and otherwise from the environment |
| StripeClient.KeySelection | litkit/payments/stripe_client.py:34-46 | mode "test" (also when unset) selects the test key, any other mode the live key, in the secrets and in the environment alike |
| StripeClient.SecretsShadowEnvironment | litkit/payments/stripe_client.py:34-39 | with a `stripe` secrets section, the environment has no influence on the key |
| StripeClient.DefaultModeIsTest | litkit/payments/stripe_client.py:36-44 | an unset mode selects the test key |
| StripeClient.LiveModeIgnoresTestKey | litkit/payments/stripe_client.py:36-39 | in live mode without a live key no key is found, even with a test key present |
| StripeClient.InitializeStripe | litkit/payments/stripe_client.py:49-72 | true iff the package is available and the key is present and non-empty |
| StripeClient.CheckStripeConfigured | litkit/payments/stripe_client.py:75-85 | true iff the package is available and some key is found |
| StripeClient.InitializedMeansConfigured | litkit/payments/stripe_client.py:56-85 | initialisation implies being configured; they differ exactly for a present but empty key |
| StripeClient.EmptyKeyIsConfiguredButNotInitialized | litkit/payments/stripe_client.py:56-85 | an empty test key is reported configured yet refused by initialisation |
| Checkout.GetCheckoutSettings | litkit/payments/checkout.py:21-47 | a non-empty secrets value wins; otherwise the environment; the URLs default to http://localhost:8501 and the price id has no default |
| Checkout.SettingsDefaults | litkit/payments/checkout.py:38-45 | with nothing configured: no price, both URLs the local default |
| Checkout.CreateCheckoutSession | litkit/payments/checkout.py:50-128 | unconfigured Stripe: nothing; then price, success URL and cancel URL are checked in that order, the first missing one stopping; otherwise one line item with the resolved price and the quantity, the mode passed through, and the customer email iff one was given |
| Checkout.ExplicitArgumentsWin | litkit/payments/checkout.py:81-86 | non-empty explicit arguments make the configured settings irrelevant |
| Checkout.MissingSuccessUrlNeedsEmptyEnvironmentValue | litkit/payments/checkout.py:81-98 | the success URL can be missing only if the argument and the secret are empty or absent and the environment sets it to "" |
| Subscription.GetUserSubscription | litkit/payments/subscription.py:21-45 | None iff Stripe is not ready; otherwise status "inactive" for the given user |
| Subscription.HasActiveSubscription | litkit/payments/subscription.py:48-60 | false for every user |
| Subscription.GetSubscriptionPlans | litkit/payments/subscription.py:63-100 | two plans, "basic" and "pro", with distinct ids; a plan is highlighted iff it is "pro"; price ids fall back to "price_placeholder" and "price_pro_placeholder" |
| Subscription.ExactlyOneHighlighted | litkit/payments/subscription.py:84-98 | exactly one plan is highlighted |
| Subscription.SubscriptionGate | litkit/payments/subscription.py:131-151 | halts iff required and not subscribed; a subscriber passes silently; a non-subscriber always sees the warning; the returned flag is the subscription state |
| Subscription.AddSubscription | litkit/payments/subscription.py:103-151 | required: halts; otherwise continues, returning False; the warning always shows and the redirect note shows iff the button was pressed |
| Subscription.GuardedPage | litkit/payments/subscription.py:147-149 | the protected content runs iff the gate does not halt |
| Subscription.BlockingModeNeverRunsContent | litkit/payments/subscription.py:131-151 | for a non-subscriber, blocking mode never runs the content and advisory mode always does |
| SubscriptionUi.SubscriptionStatus | litkit/components/payments/subscription_ui.py:16-41 | unauthenticated: only the login warning; no user: nothing; the success message shows iff the status check holds for the user's id |
| SubscriptionUi.AnonymousStatusIgnoresCheck | litkit/components/payments/subscription_ui.py:23-26 | when unauthenticated the status check is never consulted |
| SubscriptionUi.PlaceholderNeverShowsActive | litkit/components/payments/subscription_ui.py:35-38 | with the placeholder check the success message never shows |
| SubscriptionUi.SubscriptionRequired | litkit/components/payments/subscription_ui.py:44-65 | the blocking mode: always halts for the placeholder |
| SubscriptionUi.SubscriptionUpsell | litkit/components/payments/subscription_ui.py:68-89 | the advisory mode: continues, reporting not subscribed |
| UiUtils.Escape | litkit/ui/utils.py:22-28 | the five special characters map to their entities, and every other character to itself; no entity contains `<`, `>`, `"` or `'` |
| UiUtils.EscapeAll | litkit/ui/utils.py:22-31 | the escaped text is at least as long and contains none of `<`, `>`, `"`, `'` |
| UiUtils.ReplaceCharAppend | litkit/ui/utils.py:30-31 | one replacement pass distributes over concatenation |
| UiUtils.PassesOnChar | litkit/ui/utils.py:22-31 | on a single character the five passes give its entity: no entity is rewritten by a later pass |
| UiUtils.SanitizeHtml | litkit/ui/utils.py:9-33 | `None` gives "" |
| UiUtils.SanitizeIsEscapeAll | litkit/ui/utils.py:22-31 | the sequential passes, ampersand first, equal per-character escaping: each `&` becomes exactly one `&amp;` |
| UiUtils.SanitizeIsSafe | litkit/ui/utils.py:22-33 | the output has none of `<`, `>`, `"`, `'` and is at least as long as the input |
| UiUtils.PlainTextUnchanged | litkit/ui/utils.py:30-33 | text without special characters is returned unchanged |
| UiUtils.UnescapeSanitize | litkit/ui/utils.py:22-33 | decoding the five entities recovers the original text |
| UiUtils.ShowTooltip | litkit/ui/utils.py:61-76 | the html and key `show_tooltip` builds: a missing key defaults to "tooltip_" + text, and a given key is kept |
| UiUtils.StMarkdown | litkit/ui/utils.py:77 | a `st.markdown` call renders its body iff every keyword argument is one `st.markdown` accepts; otherwise it raises a `TypeError` naming an unexpected keyword |
| UiUtils.ShowTooltipAsWritten | litkit/ui/utils.py:61-77 | the call as written passes `key=`, so every call ends in `TypeError` for "key" |
| UiUtils.RenderTooltip | litkit/ui/utils.py:61-77 | the call without `key=` renders exactly the tooltip html |
| UiUtils.TooltipKeyIsRejected | litkit/ui/utils.py:61-77 | for all arguments the written call fails, while the corrected one renders html whose title decodes to the tooltip |
| UiUtils.TooltipTitleIsTooltip | litkit/ui/utils.py:72-75 | the title attribute ends at the end of the sanitised tooltip and decodes to the tooltip |
| Base.NewComponent | litkit/components/base.py:16-30 | the counter becomes its old value (0 when absent) plus one; a truthy key is used verbatim, otherwise the key is "<class>_<new count>" |
| Base.LastUnderscoreOfKey | litkit/components/base.py:28-29 | the last underscore of a generated key separates the class name from the count |
| Base.SplitAtLastUnderscore | litkit/components/base.py:28-29 | a name and an underscore-free suffix are determined by their joined form |
| Base.DefaultKeyInjective | litkit/components/base.py:28-29 | two generated keys are equal iff class and count are equal |
| Base.DefaultKeysDistinct | litkit/components/base.py:23-29 | keys generated at distinct counts are distinct |
| Base.ConstructAll | litkit/components/base.py:16-30 | constructing n components advances the counter by n and gives pairwise distinct keys |
| Base.JoinSpace | litkit/components/base.py:49 | joining nothing gives "", joining one part gives that part |
| Base.AttributeList | litkit/components/base.py:49 | one rendered attribute per entry, in insertion order |
| Base.GetHtmlTag | litkit/components/base.py:37-50 | the result starts with "<tag " and ends with "</tag>"; the content sits immediately before the closing tag, right after the `>` that ends the opening tag |
| Base.TagWithoutAttributes | litkit/components/base.py:48-50 | None and an empty dictionary both give "<tag >content</tag>" |
| Base.JoinSpaceOffsets | litkit/components/base.py:49 | each part sits at its offset, followed by one space before the next |
| Base.AttributesInOrder | litkit/components/base.py:48-50 | each attribute appears in full after "<tag ", at strictly increasing offsets in insertion order |
| Features.ClampColumns | litkit/components/features.py:41 | the count is in [1, 4], equals the argument when already in range, and is 1 below and 4 above |
| Features.NewFeatures | litkit/components/features.py:15-45 | clamped columns; the background is the given one when truthy and "#FFFFFF" otherwise; key and counter as for every component |
| Features.ClampIdempotent | litkit/components/features.py:41 | clamping twice equals clamping once |
| Features.CardOf | litkit/components/features.py:110-112 | a missing icon is a sparkle, a missing title or description is ""; present values are used |
| Features.ColumnOf | litkit/components/features.py:89 | the column index is always valid |
| Features.Render | litkit/components/features.py:72-91 | one column per count, each holding the cards of its features in order |
| Features.ColumnCardsPrefix | litkit/components/features.py:88-91 | the cards of earlier features stay at the front of each column |
| Features.FeatureInItsColumn | litkit/components/features.py:88-91 | feature i is in column i mod columns, right after that column's earlier features |
| Features.CardsUpToStep | litkit/components/features.py:88-91 | one more feature adds one card to its own column only |
| Features.ColumnsHoldEveryFeature | litkit/components/features.py:88-91 | the columns together hold exactly as many cards as there are features |
| ErrorHandling.NewLitKitError | litkit/utils/error_handling.py:15-40 | the message is kept; missing details become an empty map |
| ErrorHandling.HandleError | litkit/utils/error_handling.py:43-81 | a given message is returned unchanged; otherwise a library error's message or the generic one; details hold `type` and `message`, `traceback` iff requested, and a library error's own details, which override |
| ErrorHandling.ForeignErrorDetails | litkit/utils/error_handling.py:67-71 | a foreign exception without traceback has exactly its class name and text |
| ErrorHandling.PlainLibraryErrorDetails | litkit/utils/error_handling.py:24-79 | an error without details shows its message and reports exactly the computed keys |
| SupabaseHelpers.GetSupabaseConfigurationStatus | litkit/utils/supabase_helpers.py:28-44 | each flag reflects its own input; fully configured iff all three hold |
| SupabaseHelpers.CheckSupabaseConfigured | litkit/utils/supabase_helpers.py:14-44 | the quick check always equals the status report's "fully configured" flag |
| SupabaseHelpers.FlagsAreIndependent | litkit/utils/supabase_helpers.py:35-37 | each flag is unaffected by the other inputs |
| SupabaseHelpers.CreateSupabaseTables | litkit/utils/supabase_helpers.py:83-127 | false without a client, true with one |
| Common.NatToString | litkit/components/base.py:28 | decimal digits only, at least one, no leading zero |
| Common.DigitsValueOfNatToString | litkit/components/base.py:28 | reading the digits back gives the number |
| Common.IntToStringInjective | litkit/components/base.py:28 | distinct counts render to distinct strings |
| Common.LexLeTransitive | litkit/database/payments_db.py:33-38 | string order, as the sort uses it, is transitive |
| Common.LexLeTotal | litkit/database/payments_db.py:33-38 | any two strings are comparable |

## Left out

- The Streamlit rendering itself is not modelled. That covers CSS, markup
  layout, sidebar placement, `st.rerun`, and `st.stop` beyond the `Halt`
  outcome. It also covers `social_login_buttons`, `custom_html` and
  `apply_custom_css`, and `display_supabase_configuration_status`, because
  they only display.
- `create_grid` is not modelled. It only builds Streamlit columns and a CSS
  string.
- Timestamps are parameters. `datetime.now()`, `fromisoformat` and
  JavaScript `Date` are not modelled, so `now`, `nowInstant`, `toIso` and
  `parse` are parameters. `parse` returning `None` stands for the exception
  that `has_active_subscription` catches.
- SDK calls are abstract:
  - Stripe signature verification is the request's verification outcome.
  - `stripe.subscriptions.retrieve` is the parameter `retrieve`.
  - `stripe.checkout.Session.create` is not modelled; a successful checkout
    returns the parameters it would be called with.
  - Supabase queries are functions on the `Db` value.
  - Failures of the database calls whose `error` the webhook checks are the
    parameter `fails`.
- Exceptions raised by the Python Supabase client inside `try` blocks are not
  modelled, except the refused insert of a fresh credits row. The flag
  `insertAccepted` stands for that.
- PaymentsDb.GetUserSubscription: an absent `created_at` is `None` and sorts
  as "". A column present but null would make Python's sort raise when there
  are several rows, and the lookup would then return None. That case is not
  modelled, because every row the code creates carries a creation stamp.
- Tables.Db: holds one credits balance per user. The source reads the first
  credits row of a user, and the webhook asks for exactly one, so both assume
  there is at most one. Several rows per user are not modelled.
- Common.LowerChar: follows Python's `str.lower` only where the result is an
  ASCII letter: the letters A-Z and U+212A KELVIN SIGN, which becomes 'k'.
  Every other character is kept as it is. Python lower-cases other letters to
  non-ASCII characters, and U+0130 to two characters of which one is not
  ASCII. A name containing such a character is refused either way, because
  every supported provider name is ASCII. So `Auth.SocialSignIn` accepts
  exactly the names the source accepts, but `Common.Lower` is not Python's
  lower-casing in general.
- ErrorHandling.HandleError: detail values are strings, and the traceback
  text is a parameter instead of `traceback.format_exc()`.
- Subscription.AddSubscription: the `subscription_type`, button text, colour
  and sidebar arguments have no effect on the outcome, and are not parameters.
- The component theme (`get_theme`) is reduced to its background colour
  "#FFFFFF", taken from litkit/ui/theme.py:12. litkit/ui/theme.py is
  otherwise not part of this model.
- Default argument values are not modelled. The model's callers pass every
  argument, as litkit/components/payments/checkout_ui.py:78-85 does, and
  nothing in the repository calls `create_payment_record`. The defaults are
  `quantity=1` and `mode="subscription"` of `create_checkout_session`
  (litkit/payments/checkout.py:55-56), and `payment_type="one-time"` of
  `create_payment_record` (litkit/database/payments_db.py:321).
- Loading `.env` files is not modelled. The environment is the map that
  results from it.
- Logging and printing are not modelled, including the SQL that
  `create_supabase_tables` prints.

## Findings

| source | as written | input that shows it | evidently intended | confidence | as-written member | corrected member |
|---|---|---|---|---|---|---|
| litkit/ui/utils.py:77 | `show_tooltip` calls `st.markdown(html, unsafe_allow_html=True, key=key)`; `st.markdown` has no `key` parameter, as the comments at litkit/components/base.py:58 and :67 note | any call, e.g. `show_tooltip("a", "b")`: the call raises `TypeError` for the keyword `key` (`UiUtils.TooltipKeyIsRejected` states this for all arguments) | render the tooltip html without `key=`, as `custom_html` does; its title then decodes to the tooltip (`UiUtils.TooltipTitleIsTooltip`) | not executed; high, given the repository's own comments | UiUtils.ShowTooltipAsWritten | UiUtils.RenderTooltip |

=== FILE: auth.dfy ===
/**
  Authentication helpers over the session store (litkit/auth/auth.py).
  Each operation takes the session it reads and, where it writes one, returns
  the new session together with the `(success, message)` pair the source returns.
  Whether the Supabase client exists is the parameter `configured`.
  The demo code never contacts Supabase, so no credential check is modelled:
  the source itself performs none.
 */
module Auth {
  import opened Common
  import opened SessionState

  const NotConfiguredMessage := "Supabase client is not configured"
  const SignUpSuccessMessage := "Sign up successful! (Demo Mode - Not connected to Supabase)"
  const SignInSuccessMessage := "Sign in successful! (Demo Mode - Not connected to Supabase)"
  const MockUserId := "mock-user-id"
  const DemoUserName := "Demo User"
  const SupportedProviders: seq<string> := ["google", "github", "facebook", "twitter"]

  /** The `(success, message)` tuple the auth functions return. */
  datatype Reply = Reply(success: bool, message: string)

  /** The user record the demo sign-in stores. */
  function MockUser(email: string): User {
    User(Some(MockUserId), Some(email), Some(map["name" := DemoUserName]))
  }

  /** `st.session_state.get("authenticated", False)` */
  function IsAuthenticated(s: Session): (r: bool)
    ensures s.authenticated.None? ==> !r
    ensures r ==> s.authenticated == Some(true)
  {
    s.authenticated.GetOr(false)
  }

  /** `st.session_state.get("user", None)`: the `authenticated` flag is not consulted. */
  function GetUser(s: Session): Option<User> {
    s.user
  }

  /** The stored user is returned whatever the `authenticated` flag says. */
  lemma GetUserIgnoresAuthenticated(s: Session, flag: Option<bool>)
    ensures GetUser(s.(authenticated := flag)) == GetUser(s)
    ensures !IsAuthenticated(s) && s.user.Some? ==> GetUser(s).Some?
  {
  }

  /** A store where no sign-in has happened is not authenticated. */
  lemma FreshSessionIsAnonymous()
    ensures !IsAuthenticated(Fresh)
    ensures GetUser(Fresh).None?
  {
  }

  /** `sign_up`: succeeds exactly when a client exists; the session is not an input. */
  function SignUp(configured: bool, email: string, password: string): (r: Reply)
    ensures r.success <==> configured
    ensures !configured ==> r.message == NotConfiguredMessage
  {
    if !configured then Reply(false, NotConfiguredMessage)
    else Reply(true, SignUpSuccessMessage)
  }

  /**
    `sign_in`: no check of the fields here (the login form does that); on a
    configured client the mock user is stored and the flag set.
   */
  function SignIn(configured: bool, s: Session, email: string, password: string): (r: (Session, Reply))
    ensures !configured ==> r.0 == s && r.1 == Reply(false, NotConfiguredMessage)
    ensures configured ==> r.1 == Reply(true, SignInSuccessMessage)
    ensures configured ==> IsAuthenticated(r.0)
    ensures configured ==> GetUser(r.0) == Some(MockUser(email))
    ensures r.0.componentCount == s.componentCount
  {
    if !configured then (s, Reply(false, NotConfiguredMessage))
    else (s.(authenticated := Some(true), user := Some(MockUser(email))), Reply(true, SignInSuccessMessage))
  }

  /** After a successful sign-in the stored email is the one given, even the empty one. */
  lemma SignInStoresEmail(s: Session, email: string, password: string)
    ensures SignIn(true, s, email, password).1.success
    ensures GetUser(SignIn(true, s, email, password).0).value.email == Some(email)
  {
  }

  /** `sign_out`: removes both keys when a client exists, does nothing otherwise. */
  function SignOut(configured: bool, s: Session): (r: Session)
    ensures !configured ==> r == s
    ensures configured ==> r.authenticated.None? && r.user.None?
    ensures configured ==> !IsAuthenticated(r) && GetUser(r).None?
    ensures r.componentCount == s.componentCount
  {
    if !configured then s
    else s.(authenticated := None, user := None)
  }

  /** Signing out twice leaves the same store as signing out once. */
  lemma SignOutIdempotent(configured: bool, s: Session)
    ensures SignOut(configured, SignOut(configured, s)) == SignOut(configured, s)
  {
  }

  /** Without a client, a signed-in session stays signed in after `sign_out`. */
  lemma SignOutWithoutClientKeepsUser(s: Session, email: string, password: string)
    ensures var signedIn := SignIn(true, s, email, password).0;
            IsAuthenticated(SignOut(false, signedIn)) && GetUser(SignOut(false, signedIn)) == Some(MockUser(email))
  {
  }

  /** The sign-in / sign-out cycle: anonymous, authenticated, anonymous again. */
  lemma SignInSignOutCycle(email: string, password: string)
    ensures var signedIn := SignIn(true, Fresh, email, password).0;
            && IsAuthenticated(signedIn)
            && !IsAuthenticated(SignOut(true, signedIn))
            && GetUser(SignOut(true, signedIn)).None?
  {
  }

  /** `reset_password`: succeeds exactly when a client exists and names the address. */
  function ResetPassword(configured: bool, email: string): (r: Reply)
    ensures r.success <==> configured
    ensures !configured ==> r.message == NotConfiguredMessage
    ensures configured ==> r.message == "Password reset email sent to " + email + "! (Demo Mode)"
  {
    if !configured then Reply(false, NotConfiguredMessage)
    else Reply(true, "Password reset email sent to " + email + "! (Demo Mode)")
  }

  /** `social_sign_in`: accepts the four providers, compared after lower-casing. */
  function SocialSignIn(configured: bool, provider: string): (r: Reply)
    ensures r.success <==> configured && Lower(provider) in SupportedProviders
    ensures !configured ==> r.message == NotConfiguredMessage
    ensures configured && Lower(provider) !in SupportedProviders ==>
              r.message == "Provider " + provider + " not supported"
  {
    if !configured then Reply(false, NotConfiguredMessage)
    else if Lower(provider) !in SupportedProviders then Reply(false, "Provider " + provider + " not supported")
    else Reply(true,
               "In a real implementation, this would redirect to the " + provider + " "
               + "authorization page. When set up with your Supabase project, this "
               + "function would call: "
               + "supabase_client.auth.sign_in_with_oauth({\"provider\": \"" + provider + "\"})")
  }

  /**
    Case does not matter: a provider name is accepted exactly when its
    lower-cased form is, and two names that lower-case alike are both accepted
    or both refused.
   */
  lemma SocialSignInIgnoresCase(configured: bool, p: string, q: string)
    ensures SocialSignIn(configured, p).success == SocialSignIn(configured, Lower(p)).success
    ensures Lower(p) == Lower(q) ==> SocialSignIn(configured, p).success == SocialSignIn(configured, q).success
  {
    LowerIdempotent(p);
  }

  /** Case does not matter: "GitHub" is accepted, and nothing is accepted without a client. */
  lemma SocialSignInExamples()
    ensures SocialSignIn(true, "GitHub").success
    ensures !SocialSignIn(false, "google").success
  {
    var low := Lower("GitHub");
    assert low[0] == 'g' && low[1] == 'i' && low[2] == 't' && low[3] == 'h' && low[4] == 'u' && low[5] == 'b';
    assert low == SupportedProviders[1];
  }

  /** A six-letter name with 'i' second and 'l' fourth is none of the four providers. */
  lemma NotASupportedProvider(p: string)
    requires |p| == 6 && p[1] == 'i' && p[3] == 'l'
    ensures p !in SupportedProviders
  {
    assert p != SupportedProviders[0] by { assert p[1] != SupportedProviders[0][1]; }
    assert p != SupportedProviders[1] by { assert p[3] != SupportedProviders[1][3]; }
    assert |SupportedProviders[2]| != 6 && |SupportedProviders[3]| != 6;
  }

  /** A provider outside the four is refused: "gitlab". */
  lemma UnsupportedProviderRefused()
    ensures !SocialSignIn(true, "gitlab").success
  {
    var low := Lower("gitlab");
    assert low[1] == 'i' && low[3] == 'l';
    NotASupportedProvider(low);
  }

  /** "faceboo" followed by the Kelvin sign lower-cases to "facebook" and is accepted. */
  lemma KelvinSignProviderAccepted()
    ensures SocialSignIn(true, "faceboo" + [KelvinSign]).success
  {
    var low := Lower("faceboo" + [KelvinSign]);
    assert low[0] == 'f' && low[1] == 'a' && low[2] == 'c' && low[3] == 'e';
    assert low[4] == 'b' && low[5] == 'o' && low[6] == 'o' && low[7] == 'k';
    assert low == SupportedProviders[2];
  }
}

=== FILE: auth_ui.dfy ===
/**
  The authentication forms and gate (litkit/components/auth_ui.py).
  A form is given the values the user typed (`st.text_input` yields "" when a
  field is left blank) and whether the submit button was pressed; it returns
  its boolean result, the session after any call it made, the notices it
  showed, and the trace of calls it made into the auth helpers.
 */
module AuthUi {
  import opened Common
  import opened SessionState
  import opened Auth

  const MissingFieldsMessage := "Please provide both email and password"
  const MismatchMessage := "Passwords do not match"
  const MissingEmailMessage := "Please provide your email"
  const NotLoggedInMessage := "You are not logged in"
  const LoginPromptMessage := "Please log in to access this content"

  /** A call the UI makes into the auth helpers. */
  datatype Call =
    | SignInCall(email: string, password: string)
    | SignUpCall(email: string, password: string)
    | ResetCall(email: string)
    | SignOutCall

  datatype FormResult = FormResult(ok: bool, session: Session, notices: seq<Notice>, calls: seq<Call>)

  datatype LoginInput = LoginInput(submitted: bool, email: string, password: string)
  datatype SignupInput = SignupInput(submitted: bool, email: string, password: string, confirm: string)
  datatype ResetInput = ResetInput(submitted: bool, email: string)

  /** `login_form` */
  function LoginForm(configured: bool, s: Session, input: LoginInput): (r: FormResult)
    ensures !input.submitted ==> r == FormResult(false, s, [], [])
    // sign_in is reached only with both fields non-empty
    ensures r.calls != [] ==> input.email != "" && input.password != ""
    ensures input.submitted && (input.email == "" || input.password == "") ==>
              r == FormResult(false, s, [Error(MissingFieldsMessage)], [])
    ensures input.submitted && input.email != "" && input.password != "" ==>
              && r.calls == [SignInCall(input.email, input.password)]
              && r.session == SignIn(configured, s, input.email, input.password).0
    // the result is exactly sign_in's success flag, once it is called
    ensures r.ok <==> r.calls != [] && SignIn(configured, s, input.email, input.password).1.success
  {
    if !input.submitted then FormResult(false, s, [], [])
    else if input.email != "" && input.password != "" then
      var (s', reply) := SignIn(configured, s, input.email, input.password);
      if reply.success then FormResult(true, s', [Success(reply.message)], [SignInCall(input.email, input.password)])
      else FormResult(false, s', [Error(reply.message)], [SignInCall(input.email, input.password)])
    else FormResult(false, s, [Error(MissingFieldsMessage)], [])
  }

  /** With a client, a submitted form with both fields filled signs the user in. */
  lemma LoginFormSignsIn(s: Session, email: string, password: string)
    requires email != "" && password != ""
    ensures var r := LoginForm(true, s, LoginInput(true, email, password));
            r.ok && IsAuthenticated(r.session) && GetUser(r.session).value.email == Some(email)
  {
  }

  /** `signup_form`: empty fields first, then the confirmation, then `sign_up`. */
  function SignupForm(configured: bool, s: Session, input: SignupInput): (r: FormResult)
    ensures r.session == s
    ensures !input.submitted ==> r == FormResult(false, s, [], [])
    ensures input.submitted && (input.email == "" || input.password == "") ==>
              r == FormResult(false, s, [Error(MissingFieldsMessage)], [])
    ensures input.submitted && input.email != "" && input.password != "" && input.password != input.confirm ==>
              r == FormResult(false, s, [Error(MismatchMessage)], [])
    ensures r.calls != [] ==> input.email != "" && input.password != "" && input.password == input.confirm
    ensures r.ok <==> r.calls != [] && SignUp(configured, input.email, input.password).success
    ensures r.ok <==> input.submitted && input.email != "" && input.password != ""
                      && input.password == input.confirm && configured
  {
    if !input.submitted then FormResult(false, s, [], [])
    else if input.email == "" || input.password == "" then FormResult(false, s, [Error(MissingFieldsMessage)], [])
    else if input.password != input.confirm then FormResult(false, s, [Error(MismatchMessage)], [])
    else
      var reply := SignUp(configured, input.email, input.password);
      var calls := [SignUpCall(input.email, input.password)];
      if reply.success then FormResult(true, s, [Success(reply.message)], calls)
      else FormResult(false, s, [Error(reply.message)], calls)
  }

  /** `reset_password_form` */
  function ResetPasswordForm(configured: bool, s: Session, input: ResetInput): (r: FormResult)
    ensures r.session == s
    ensures forall i :: 0 <= i < |r.calls| ==> r.calls[i] == ResetCall(input.email) && input.email != ""
    ensures !input.submitted ==> r == FormResult(false, s, [], [])
    ensures input.submitted && input.email == "" ==> r == FormResult(false, s, [Error(MissingEmailMessage)], [])
    // a submitted address is passed to reset_password once, and its message is shown
    ensures input.submitted && input.email != "" ==>
              var reply := ResetPassword(configured, input.email);
              && r.calls == [ResetCall(input.email)]
              && r.notices == [if reply.success then Success(reply.message) else Error(reply.message)]
    ensures r.ok <==> input.submitted && input.email != "" && configured
  {
    if !input.submitted then FormResult(false, s, [], [])
    else if input.email != "" then
      var reply := ResetPassword(configured, input.email);
      if reply.success then FormResult(true, s, [Success(reply.message)], [ResetCall(input.email)])
      else FormResult(false, s, [Error(reply.message)], [ResetCall(input.email)])
    else FormResult(false, s, [Error(MissingEmailMessage)], [])
  }

  /** What `user_profile` renders. */
  datatype ProfileView =
    | NotLoggedIn
    | NoUser
    | Profile(emailLine: string, nameLine: Option<string>)

  /** The view, the session afterwards and whether a rerun was requested. */
  datatype ProfileResult = ProfileResult(view: ProfileView, session: Session, rerun: bool)

  /** The profile lines for a present user record. */
  function ProfileOf(u: User): ProfileView {
    var name :=
      if u.metadata.Some? && u.metadata.value != map[] && Truthy(Get(u.metadata.value, "name"))
      then Some("Name: " + u.metadata.value["name"]) else None;
    Profile("Email: " + u.email.GetOr("Unknown"), name)
  }

  /** `user_profile`; `signOutPressed` is the state of its "Sign Out" button. */
  function UserProfile(configured: bool, s: Session, signOutPressed: bool): (r: ProfileResult)
    ensures !IsAuthenticated(s) ==> r == ProfileResult(NotLoggedIn, s, false)
    ensures IsAuthenticated(s) && !UserPresent(s.user) ==> r == ProfileResult(NoUser, s, false)
    ensures r.view.Profile? <==> IsAuthenticated(s) && UserPresent(s.user)
    ensures r.view.Profile? && s.user.value.email.Some? ==> r.view.emailLine == "Email: " + s.user.value.email.value
    ensures r.rerun <==> r.view.Profile? && signOutPressed
    ensures r.rerun ==> r.session == SignOut(configured, s)
    ensures !r.rerun ==> r.session == s
  {
    if !IsAuthenticated(s) then ProfileResult(NotLoggedIn, s, false)
    else if !UserPresent(GetUser(s)) then ProfileResult(NoUser, s, false)
    else if signOutPressed then ProfileResult(ProfileOf(s.user.value), SignOut(configured, s), true)
    else ProfileResult(ProfileOf(s.user.value), s, false)
  }

  /** An anonymous session's stored user has no influence on what the profile shows. */
  lemma UserProfileIgnoresUserWhenAnonymous(configured: bool, s: Session, u: Option<User>, pressed: bool)
    requires !IsAuthenticated(s)
    ensures UserProfile(configured, s, pressed).view == UserProfile(configured, s.(user := u), pressed).view
    ensures UserProfile(configured, s, pressed).session == s
  {
  }

  /** The demo user's profile shows its email and name. */
  lemma ProfileOfDemoUser(email: string)
    ensures ProfileOf(MockUser(email)) == Profile("Email: " + email, Some("Name: Demo User"))
  {
    var m := MockUser(email).metadata.value;
    assert "name" in m && m != map[];
    assert m["name"] == DemoUserName;
    assert Truthy(Get(m, "name"));
    assert "Name: " + DemoUserName == "Name: Demo User";
  }

  /**
    The result of calling a function wrapped by `auth_required`. The wrapped
    function is a transformer of some state `W` (what it does to the page or
    the world) that also yields a value. `value` is `None` when it did not run.
   */
  datatype Gated<W, T> = Gated(session: Session, world: W, value: Option<T>, notices: seq<Notice>)

  /**
    `auth_required(f)(...)`: runs `f` once when authenticated; otherwise shows
    the prompt and the login form (which may sign the user in) and returns None.
   */
  function AuthRequired<W, T>(configured: bool, s: Session, w: W, f: W -> (W, T), login: LoginInput): (r: Gated<W, T>)
    ensures IsAuthenticated(s) ==> r == Gated(s, f(w).0, Some(f(w).1), [])
    ensures !IsAuthenticated(s) ==> r.world == w && r.value.None?
    ensures !IsAuthenticated(s) ==> r.session == LoginForm(configured, s, login).session
    ensures !IsAuthenticated(s) ==> |r.notices| >= 1 && r.notices[0] == Warning(LoginPromptMessage)
    ensures !IsAuthenticated(s) ==> r.notices == [Warning(LoginPromptMessage)] + LoginForm(configured, s, login).notices
  {
    if IsAuthenticated(s) then
      var (w', v) := f(w);
      Gated(s, w', Some(v), [])
    else
      var form := LoginForm(configured, s, login);
      Gated(form.session, w, None, [Warning(LoginPromptMessage)] + form.notices)
  }

  /**
    Run with a counter as the world and a function that increments it, the gate
    leaves the counter at one more when authenticated (`f` ran exactly once) and
    unchanged otherwise (`f` did not run).
   */
  lemma AuthRequiredRunsOnce(configured: bool, s: Session, n: int, login: LoginInput)
    ensures var r := AuthRequired(configured, s, n, (k: int) => (k + 1, k), login);
            && (IsAuthenticated(s) ==> r.world == n + 1 && r.value == Some(n))
            && (!IsAuthenticated(s) ==> r.world == n && r.value == None)
  {
  }

  /** A login submitted through the gate signs the user in, yet the gate still returns None. */
  lemma AuthRequiredLoginStillReturnsNone<W, T>(s: Session, w: W, f: W -> (W, T), email: string, password: string)
    requires !IsAuthenticated(s) && email != "" && password != ""
    ensures var r := AuthRequired(true, s, w, f, LoginInput(true, email, password));
            r.value.None? && IsAuthenticated(r.session)
  {
  }
}

=== FILE: base.dfy ===
/**
  The component base class (litkit/components/base.py): the per-session
  counter that names components, and the HTML tag builder. The theme lookup
  of the constructor and the two rendering helpers are not modelled.
 */
module Base {
  import opened Common
  import opened SessionState

  /** `component_count` as the constructor reads it: 0 when the key is absent. */
  function CountOf(s: Session): int {
    s.componentCount.GetOr(0)
  }

  /** The key generated for a component: class name, underscore, decimal count. */
  function DefaultKey(className: string, count: int): string {
    className + "_" + IntToString(count)
  }

  /**
    `BaseComponent.__init__`: bumps the counter and returns the component's
    key. An explicit key is used verbatim when truthy; `None` and "" both fall
    back to the generated key, since the source writes `key or ...`.
   */
  function NewComponent(s: Session, className: string, key: Option<string>): (r: (Session, string))
    ensures r.0.componentCount == Some(CountOf(s) + 1)
    ensures r.0.authenticated == s.authenticated && r.0.user == s.user
    ensures Truthy(key) ==> r.1 == key.value
    ensures !Truthy(key) ==> r.1 == DefaultKey(className, CountOf(r.0))
  {
    var count := CountOf(s) + 1;
    (s.(componentCount := Some(count)), if Truthy(key) then key.value else DefaultKey(className, count))
  }

  lemma IntToStringHasNoUnderscore(n: int)
    ensures forall i :: 0 <= i < |IntToString(n)| ==> IntToString(n)[i] != '_'
  {
    if n < 0 {
      var d := NatToString(-n);
      assert forall i :: 1 <= i < |IntToString(n)| ==> IntToString(n)[i] == d[i - 1];
    }
  }

  /** Index of the last underscore in `s`, or -1 when there is none. */
  function LastUnderscore(s: string): (r: int)
    ensures -1 <= r < |s|
  {
    if s == [] then -1 else if s[|s| - 1] == '_' then |s| - 1 else LastUnderscore(s[..|s| - 1])
  }

  lemma {:induction false} LastUnderscoreOfKey(c: string, d: string)
    requires forall i :: 0 <= i < |d| ==> d[i] != '_'
    ensures LastUnderscore(c + "_" + d) == |c|
  {
    var k := c + "_" + d;
    if d == [] {
      assert k == c + "_";
    } else {
      var d' := d[..|d| - 1];
      assert k[|k| - 1] == d[|d| - 1];
      assert k[..|k| - 1] == c + "_" + d';
      LastUnderscoreOfKey(c, d');
    }
  }

  /** Splitting at the last underscore: a name and an underscore-free suffix are determined by their concatenation. */
  lemma SplitAtLastUnderscore(c1: string, d1: string, c2: string, d2: string)
    requires forall i :: 0 <= i < |d1| ==> d1[i] != '_'
    requires forall i :: 0 <= i < |d2| ==> d2[i] != '_'
    requires c1 + "_" + d1 == c2 + "_" + d2
    ensures c1 == c2 && d1 == d2
  {
    var k := c1 + "_" + d1;
    LastUnderscoreOfKey(c1, d1);
    LastUnderscoreOfKey(c2, d2);
    assert |c1| == |c2|;
    assert c1 == k[..|c1|] == c2;
    assert d1 == k[|c1| + 1..] == d2;
  }

  /** A generated key names its class and its count: no two (class, count) pairs share a key. */
  lemma DefaultKeyInjective(c1: string, n1: int, c2: string, n2: int)
    ensures DefaultKey(c1, n1) == DefaultKey(c2, n2) <==> c1 == c2 && n1 == n2
  {
    if DefaultKey(c1, n1) == DefaultKey(c2, n2) {
      IntToStringHasNoUnderscore(n1);
      IntToStringHasNoUnderscore(n2);
      SplitAtLastUnderscore(c1, IntToString(n1), c2, IntToString(n2));
      IntToStringInjective(n1, n2);
    }
  }

  /** Keys generated at distinct counts are distinct, whatever the class names. */
  lemma DefaultKeysDistinct(keys: seq<string>, classNames: seq<string>, base: int)
    requires |keys| == |classNames|
    requires forall j :: 0 <= j < |keys| ==> keys[j] == DefaultKey(classNames[j], base + j + 1)
    ensures forall a, b :: 0 <= a < b < |keys| ==> keys[a] != keys[b]
  {
    forall a, b | 0 <= a < b < |keys|
      ensures keys[a] != keys[b]
    {
      DefaultKeyInjective(classNames[a], base + a + 1, classNames[b], base + b + 1);
    }
  }

  /** The keys generated for `classNames` when the counter starts at `base`. */
  function GeneratedKeys(classNames: seq<string>, base: int): (r: seq<string>)
    ensures |r| == |classNames|
  {
    if classNames == [] then []
    else
      var n := |classNames| - 1;
      GeneratedKeys(classNames[..n], base) + [DefaultKey(classNames[n], base + n + 1)]
  }

  lemma {:induction false} GeneratedKeysAt(classNames: seq<string>, base: int, j: nat)
    requires j < |classNames|
    ensures GeneratedKeys(classNames, base)[j] == DefaultKey(classNames[j], base + j + 1)
  {
    var n := |classNames| - 1;
    if j < n {
      GeneratedKeysAt(classNames[..n], base, j);
    }
  }

  /**
    Constructs one component per class name, in order, all without an explicit
    key, as a page does on one render pass. The counter advances by one per
    component and the keys are pairwise distinct, whatever the class names.
   */
  method ConstructAll(s: Session, classNames: seq<string>) returns (s': Session, keys: seq<string>)
    ensures CountOf(s') == CountOf(s) + |classNames|
    ensures s'.authenticated == s.authenticated && s'.user == s.user
    ensures |keys| == |classNames|
    ensures forall j :: 0 <= j < |keys| ==> keys[j] == DefaultKey(classNames[j], CountOf(s) + j + 1)
    ensures forall i, j :: 0 <= i < j < |keys| ==> keys[i] != keys[j]
  {
    var base := CountOf(s);
    s' := s;
    keys := [];
    var i := 0;
    while i < |classNames|
      invariant 0 <= i <= |classNames|
      invariant CountOf(s') == base + i
      invariant s'.authenticated == s.authenticated && s'.user == s.user
      invariant keys == GeneratedKeys(classNames[..i], base)
    {
      var (s1, key) := NewComponent(s', classNames[i], None);
      assert key == DefaultKey(classNames[i], base + i + 1);
      var done := classNames[..i + 1];
      assert done[..i] == classNames[..i] && done[i] == classNames[i];
      assert GeneratedKeys(done, base) == GeneratedKeys(classNames[..i], base) + [key];
      s', keys := s1, keys + [key];
      i := i + 1;
    }
    assert classNames[..i] == classNames;
    forall j | 0 <= j < |keys|
      ensures keys[j] == DefaultKey(classNames[j], base + j + 1)
    {
      GeneratedKeysAt(classNames, base, j);
    }
    DefaultKeysDistinct(keys, classNames, base);
  }

  /** `name="value"`, as the source renders one attribute; the value is not escaped. */
  function RenderAttribute(attr: (string, string)): string {
    attr.0 + "=\"" + attr.1 + "\""
  }

  /** `" ".join(parts)` */
  function JoinSpace(parts: seq<string>): (r: string)
    ensures |parts| == 0 ==> r == ""
    ensures |parts| == 1 ==> r == parts[0]
  {
    if |parts| == 0 then "" else if |parts| == 1 then parts[0] else parts[0] + " " + JoinSpace(parts[1..])
  }

  /** The rendered attributes, in the dictionary's insertion order. */
  function AttributeList(attrs: seq<(string, string)>): (r: seq<string>)
    ensures |r| == |attrs|
    ensures forall i :: 0 <= i < |attrs| ==> r[i] == RenderAttribute(attrs[i])
  {
    seq(|attrs|, i requires 0 <= i < |attrs| => RenderAttribute(attrs[i]))
  }

  /** `get_html_tag`: a `None` attribute dictionary counts as an empty one. */
  function GetHtmlTag(tag: string, content: string, attributes: Option<seq<(string, string)>>): (r: string)
    ensures |r| >= |tag| + 2 + |content| + |tag| + 3
    ensures r[..|tag| + 2] == "<" + tag + " "
    ensures r[|r| - |tag| - 3..] == "</" + tag + ">"
    // the content sits between the end of the opening tag and the closing tag
    ensures r[|r| - |tag| - 3 - |content|..|r| - |tag| - 3] == content
    ensures r[|r| - |tag| - 4 - |content|] == '>'
  {
    var attrs := if attributes.Some? then attributes.value else [];
    var opening := "<" + tag + " " + JoinSpace(AttributeList(attrs)) + ">";
    var r := opening + content + "</" + tag + ">";
    assert r[|opening|..|opening| + |content|] == content;
    r
  }

  /** Without attributes the opening tag keeps its trailing space. */
  lemma TagWithoutAttributes(tag: string, content: string)
    ensures GetHtmlTag(tag, content, None) == "<" + tag + " >" + content + "</" + tag + ">"
    ensures GetHtmlTag(tag, content, Some([])) == GetHtmlTag(tag, content, None)
  {
  }

  /** Where part `i` starts in `JoinSpace(parts)`. */
  function Offset(parts: seq<string>, i: nat): nat
    requires i < |parts|
  {
    if i == 0 then 0 else |parts[0]| + 1 + Offset(parts[1..], i - 1)
  }

  /** Each part sits at its offset, and the next part starts one space later. */
  lemma {:induction false} JoinSpaceOffsets(parts: seq<string>, i: nat)
    requires i < |parts|
    ensures Offset(parts, i) + |parts[i]| <= |JoinSpace(parts)|
    ensures JoinSpace(parts)[Offset(parts, i)..Offset(parts, i) + |parts[i]|] == parts[i]
    ensures i + 1 < |parts| ==>
              Offset(parts, i + 1) == Offset(parts, i) + |parts[i]| + 1
              && Offset(parts, i) + |parts[i]| < |JoinSpace(parts)|
              && JoinSpace(parts)[Offset(parts, i) + |parts[i]|] == ' '
  {
    var j := JoinSpace(parts);
    if i == 0 {
      if |parts| > 1 {
        assert j == parts[0] + " " + JoinSpace(parts[1..]);
        assert j[..|parts[0]|] == parts[0];
        assert Offset(parts, 1) == |parts[0]| + 1 + Offset(parts[1..], 0);
      }
    } else {
      JoinSpaceOffsets(parts[1..], i - 1);
      var k := |parts[0]| + 1;
      assert j == parts[0] + " " + JoinSpace(parts[1..]);
      assert j[k..] == JoinSpace(parts[1..]);
      if i + 1 < |parts| {
        assert Offset(parts, i + 1) == k + Offset(parts[1..], i);
      }
    }
  }

  lemma SliceOfMiddle(pre: string, mid: string, post: string, a: nat, b: nat)
    requires a <= b <= |mid|
    ensures (pre + mid + post)[|pre| + a..|pre| + b] == mid[a..b]
  {
    assert (pre + mid + post)[|pre|..|pre| + |mid|] == mid;
  }

  /** Part `i` of a space-joined list, framed by any `pre` and `post`, sits at `|pre|` plus its offset. */
  lemma PartInFramedJoin(pre: string, post: string, parts: seq<string>, i: nat)
    requires i < |parts|
    ensures var r := pre + JoinSpace(parts) + post;
            var at := |pre| + Offset(parts, i);
            && at + |parts[i]| <= |r|
            && r[at..at + |parts[i]|] == parts[i]
    ensures i + 1 < |parts| ==> Offset(parts, i) < Offset(parts, i + 1)
  {
    JoinSpaceOffsets(parts, i);
    SliceOfMiddle(pre, JoinSpace(parts), post, Offset(parts, i), Offset(parts, i) + |parts[i]|);
  }

  /**
    The attributes appear in insertion order, each rendered in full, one space
    apart, starting right after `<tag `.
   */
  lemma AttributesInOrder(tag: string, content: string, attrs: seq<(string, string)>, i: nat)
    requires i < |attrs|
    ensures var r := GetHtmlTag(tag, content, Some(attrs));
            var at := |tag| + 2 + Offset(AttributeList(attrs), i);
            && at + |RenderAttribute(attrs[i])| <= |r|
            && r[at..at + |RenderAttribute(attrs[i])|] == RenderAttribute(attrs[i])
    ensures i + 1 < |attrs| ==> Offset(AttributeList(attrs), i) < Offset(AttributeList(attrs), i + 1)
  {
    var pre := "<" + tag + " ";
    TagAroundAttributes(tag, content, attrs);
    PartInFramedJoin(pre, ">" + content + "</" + tag + ">", AttributeList(attrs), i);
    assert |pre| == |tag| + 2;
  }

  lemma TagAroundAttributes(tag: string, content: string, attrs: seq<(string, string)>)
    ensures GetHtmlTag(tag, content, Some(attrs))
            == ("<" + tag + " ") + JoinSpace(AttributeList(attrs)) + (">" + content + "</" + tag + ">")
  {
  }
}

=== FILE: checkout.dfy ===
/**
  Checkout settings and checkout-session parameters (litkit/payments/checkout.py).
  The Stripe call that turns the parameters into a hosted page is not modelled:
  a successful run yields the parameters the source would pass to it.
 */
module Checkout {
  import opened Common
  import opened StripeClient

  const DefaultUrl := "http://localhost:8501"

  datatype Settings = Settings(priceId: Option<string>, successUrl: Option<string>, cancelUrl: Option<string>)

  /** The value of setting `name` in the `stripe` secrets section, if there is one. */
  function SecretSetting(e: StripeEnv, name: string): Option<string> {
    if "stripe" in e.secrets then Get(e.secrets["stripe"], name) else None
  }

  /** `os.getenv(name, default)` */
  function EnvSetting(e: StripeEnv, name: string, default: Option<string>): Option<string> {
    if name in e.env then Some(e.env[name]) else default
  }

  /** A truthy first value wins, otherwise the second: Python's `a or b` on the settings. */
  function FirstTruthy(preferred: Option<string>, fallback: Option<string>): Option<string> {
    if Truthy(preferred) then preferred else fallback
  }

  /** `get_checkout_settings` */
  function GetCheckoutSettings(e: StripeEnv): (r: Settings)
    // a non-empty secrets value takes precedence over the environment
    ensures Truthy(SecretSetting(e, "PRICE_ID")) ==> r.priceId == SecretSetting(e, "PRICE_ID")
    ensures Truthy(SecretSetting(e, "SUCCESS_URL")) ==> r.successUrl == SecretSetting(e, "SUCCESS_URL")
    ensures Truthy(SecretSetting(e, "CANCEL_URL")) ==> r.cancelUrl == SecretSetting(e, "CANCEL_URL")
    // otherwise the environment, with a default only for the two URLs
    ensures !Truthy(SecretSetting(e, "PRICE_ID")) ==> r.priceId == Get(e.env, "STRIPE_PRICE_ID")
    ensures !Truthy(SecretSetting(e, "SUCCESS_URL")) ==>
              r.successUrl == Some(GetOrDefault(e.env, "STRIPE_SUCCESS_URL", DefaultUrl))
    ensures !Truthy(SecretSetting(e, "CANCEL_URL")) ==>
              r.cancelUrl == Some(GetOrDefault(e.env, "STRIPE_CANCEL_URL", DefaultUrl))
    ensures r.successUrl.Some? && r.cancelUrl.Some?
  {
    Settings(
      FirstTruthy(SecretSetting(e, "PRICE_ID"), EnvSetting(e, "STRIPE_PRICE_ID", None)),
      FirstTruthy(SecretSetting(e, "SUCCESS_URL"), EnvSetting(e, "STRIPE_SUCCESS_URL", Some(DefaultUrl))),
      FirstTruthy(SecretSetting(e, "CANCEL_URL"), EnvSetting(e, "STRIPE_CANCEL_URL", Some(DefaultUrl))))
  }

  /** With nothing configured anywhere, the URLs fall back to the local app and there is no price. */
  lemma SettingsDefaults(e: StripeEnv)
    requires e.secrets == map[] && e.env == map[]
    ensures GetCheckoutSettings(e) == Settings(None, Some(DefaultUrl), Some(DefaultUrl))
  {
  }

  datatype LineItem = LineItem(price: string, quantity: int)

  /** The keyword arguments passed to `stripe.checkout.Session.create`. */
  datatype CheckoutParams = CheckoutParams(
    lineItems: seq<LineItem>, mode: string, successUrl: string, cancelUrl: string, customerEmail: Option<string>)

  /** Why no session was requested, or the parameters of the one that was. */
  datatype CheckoutOutcome =
    | NotConfigured
    | MissingPriceId
    | MissingSuccessUrl
    | MissingCancelUrl
    | SessionRequested(params: CheckoutParams)

  /** The three settings after the explicit arguments have overridden them. */
  function Effective(e: StripeEnv, successUrl: Option<string>, cancelUrl: Option<string>, priceId: Option<string>): Settings {
    var s := GetCheckoutSettings(e);
    Settings(FirstTruthy(priceId, s.priceId), FirstTruthy(successUrl, s.successUrl), FirstTruthy(cancelUrl, s.cancelUrl))
  }

  /** `create_checkout_session` */
  function CreateCheckoutSession(
    e: StripeEnv, userEmail: Option<string>, successUrl: Option<string>, cancelUrl: Option<string>,
    priceId: Option<string>, quantity: int, mode: string): (r: CheckoutOutcome)
    ensures !Ready(e) ==> r == NotConfigured
    ensures var eff := Effective(e, successUrl, cancelUrl, priceId);
            && (r.MissingPriceId? <==> Ready(e) && !Truthy(eff.priceId))
            && (r.MissingSuccessUrl? <==> Ready(e) && Truthy(eff.priceId) && !Truthy(eff.successUrl))
            && (r.MissingCancelUrl? <==> Ready(e) && Truthy(eff.priceId) && Truthy(eff.successUrl) && !Truthy(eff.cancelUrl))
            && (r.SessionRequested? <==> Ready(e) && Truthy(eff.priceId) && Truthy(eff.successUrl) && Truthy(eff.cancelUrl))
    ensures r.SessionRequested? ==>
              var eff := Effective(e, successUrl, cancelUrl, priceId);
              && r.params.lineItems == [LineItem(eff.priceId.value, quantity)]
              && r.params.mode == mode
              && r.params.successUrl == eff.successUrl.value && r.params.successUrl != ""
              && r.params.cancelUrl == eff.cancelUrl.value && r.params.cancelUrl != ""
    ensures r.SessionRequested? ==> (r.params.customerEmail.Some? <==> Truthy(userEmail))
    ensures r.SessionRequested? && Truthy(userEmail) ==> r.params.customerEmail == userEmail
  {
    if !(CheckStripeConfigured(e) && InitializeStripe(e)) then NotConfigured
    else
      var eff := Effective(e, successUrl, cancelUrl, priceId);
      if !Truthy(eff.priceId) then MissingPriceId
      else if !Truthy(eff.successUrl) then MissingSuccessUrl
      else if !Truthy(eff.cancelUrl) then MissingCancelUrl
      else
        SessionRequested(CheckoutParams(
          [LineItem(eff.priceId.value, quantity)], mode, eff.successUrl.value, eff.cancelUrl.value,
          if Truthy(userEmail) then userEmail else None))
  }

  /** Truthy explicit arguments make the configured settings irrelevant. */
  lemma ExplicitArgumentsWin(e: StripeEnv, userEmail: Option<string>, successUrl: string, cancelUrl: string, priceId: string, quantity: int, mode: string)
    requires Ready(e) && successUrl != "" && cancelUrl != "" && priceId != ""
    ensures CreateCheckoutSession(e, userEmail, Some(successUrl), Some(cancelUrl), Some(priceId), quantity, mode)
            == SessionRequested(CheckoutParams([LineItem(priceId, quantity)], mode, successUrl, cancelUrl,
                                               if Truthy(userEmail) then userEmail else None))
  {
  }

  /**
    An empty-string argument is not an override: the configured setting is used.
    The success URL can only be missing when it is set to "" in the
    environment and neither the secrets nor the argument give a non-empty one.
   */
  lemma MissingSuccessUrlNeedsEmptyEnvironmentValue(
    e: StripeEnv, userEmail: Option<string>, successUrl: Option<string>, cancelUrl: Option<string>,
    priceId: Option<string>, quantity: int, mode: string)
    ensures CreateCheckoutSession(e, userEmail, successUrl, cancelUrl, priceId, quantity, mode).MissingSuccessUrl? ==>
              && !Truthy(successUrl) && !Truthy(SecretSetting(e, "SUCCESS_URL"))
              && Get(e.env, "STRIPE_SUCCESS_URL") == Some("")
  {
  }
}

=== FILE: common.dfy ===
/**
  Small vocabulary shared by every module of the model: an optional value,
  the notices a page shows, Python truthiness of optional strings, lower-casing,
  decimal rendering of integers and Python's ordering of strings.
 */
module Common {

  /** Python's `None` / a present value. */
  datatype Option<+T> = None | Some(value: T) {

    /** `x if x is not None else d` */
    function GetOr(d: T): T {
      match this
      case Some(v) => v
      case None => d
    }
  }

  /** A message rendered by the page (`st.success`, `st.error`, `st.warning`, `st.info`). */
  datatype Notice =
    | Success(text: string)
    | Error(text: string)
    | Warning(text: string)
    | Info(text: string)

  /** Python truthiness of an optional string: present and non-empty. */
  predicate Truthy(s: Option<string>) {
    s.Some? && s.value != ""
  }

  /** `m.get(k)` on a string-valued mapping. */
  function Get(m: map<string, string>, k: string): (r: Option<string>)
    ensures r.Some? <==> k in m
    ensures r.Some? ==> r.value == m[k]
  {
    if k in m then Some(m[k]) else None
  }

  /** `m.get(k, d)` on a string-valued mapping. */
  function GetOrDefault(m: map<string, string>, k: string, d: string): (r: string)
    ensures k in m ==> r == m[k]
    ensures k !in m ==> r == d
  {
    if k in m then m[k] else d
  }

  // ---------------------------------------------------------------------------
  // Lower-casing, as far as it can produce an ASCII letter

  /** U+212A KELVIN SIGN, which Python's `str.lower` maps to 'k'. */
  const KelvinSign := '\U{212A}'

  /**
    Python's `str.lower` on one character, exact wherever the result is an
    ASCII letter: the upper-case ASCII letters and the Kelvin sign are the only
    characters that lower-case to one. Every other character is kept (see README).
   */
  function LowerChar(c: char): (r: char)
    ensures 'A' <= c <= 'Z' ==> r as int == c as int + 32
    ensures c == KelvinSign ==> r == 'k'
    ensures !('A' <= c <= 'Z') && c != KelvinSign ==> r == c
  {
    if 'A' <= c <= 'Z' then (c as int + 32) as char
    else if c == KelvinSign then 'k'
    else c
  }

  function Lower(s: string): (r: string)
    ensures |r| == |s|
    ensures forall i :: 0 <= i < |s| ==> r[i] == LowerChar(s[i])
  {
    if s == [] then [] else [LowerChar(s[0])] + Lower(s[1..])
  }

  /** Lower-casing twice is lower-casing once. */
  lemma LowerIdempotent(s: string)
    ensures Lower(Lower(s)) == Lower(s)
  {
    assert forall i :: 0 <= i < |s| ==> LowerChar(LowerChar(s[i])) == LowerChar(s[i]);
  }

  // ---------------------------------------------------------------------------
  // Decimal rendering, Python's `str(n)` on an int

  predicate IsDigit(c: char) {
    '0' <= c <= '9'
  }

  function DigitChar(d: nat): (c: char)
    requires d < 10
    ensures IsDigit(c)
    ensures c as int - '0' as int == d
  {
    ('0' as int + d) as char
  }

  /** The decimal digits of `n`, most significant first, without leading zeros. */
  function NatToString(n: nat): (s: string)
    ensures |s| >= 1
    ensures forall i :: 0 <= i < |s| ==> IsDigit(s[i])
    ensures |s| > 1 ==> s[0] != '0'
    decreases n
  {
    if n < 10 then [DigitChar(n)] else NatToString(n / 10) + [DigitChar(n % 10)]
  }

  /** The value of a string of decimal digits. */
  function DigitsValue(s: string): nat
    requires forall i :: 0 <= i < |s| ==> IsDigit(s[i])
  {
    if s == [] then 0
    else
      assert IsDigit(s[|s| - 1]);
      DigitsValue(s[..|s| - 1]) * 10 + (s[|s| - 1] as int - '0' as int)
  }

  lemma {:induction false} DigitsValueOfNatToString(n: nat)
    ensures DigitsValue(NatToString(n)) == n
    decreases n
  {
    if n >= 10 {
      var s := NatToString(n);
      assert s[..|s| - 1] == NatToString(n / 10);
      DigitsValueOfNatToString(n / 10);
    }
  }

  /** Distinct naturals render to distinct strings. */
  lemma NatToStringInjective(a: nat, b: nat)
    ensures NatToString(a) == NatToString(b) ==> a == b
  {
    DigitsValueOfNatToString(a);
    DigitsValueOfNatToString(b);
  }

  /** Python's `str(i)` on an int. */
  function IntToString(i: int): (s: string)
    ensures i >= 0 ==> s == NatToString(i)
    ensures i < 0 ==> s == "-" + NatToString(-i)
  {
    if i < 0 then "-" + NatToString(-i) else NatToString(i)
  }

  lemma IntToStringInjective(a: int, b: int)
    ensures IntToString(a) == IntToString(b) ==> a == b
  {
    if IntToString(a) == IntToString(b) {
      if a >= 0 && b >= 0 {
        NatToStringInjective(a, b);
      } else if a < 0 && b < 0 {
        assert NatToString(-a) == IntToString(a)[1..];
        NatToStringInjective(-a, -b);
      }
    }
  }

  // ---------------------------------------------------------------------------
  // Python's ordering of `str` values: lexicographic by code point

  predicate LexLe(a: string, b: string)
    decreases |a|
  {
    |a| == 0 || (|b| > 0 && (a[0] < b[0] || (a[0] == b[0] && LexLe(a[1..], b[1..]))))
  }

  predicate LexLt(a: string, b: string) {
    !LexLe(b, a)
  }

  lemma {:induction false} LexLeReflexive(a: string)
    ensures LexLe(a, a)
    decreases |a|
  {
    if |a| > 0 {
      LexLeReflexive(a[1..]);
    }
  }

  lemma {:induction false} LexLeTotal(a: string, b: string)
    ensures LexLe(a, b) || LexLe(b, a)
    decreases |a|
  {
    if |a| > 0 && |b| > 0 && a[0] == b[0] {
      LexLeTotal(a[1..], b[1..]);
    }
  }

  lemma {:induction false} LexLeTransitive(a: string, b: string, c: string)
    requires LexLe(a, b) && LexLe(b, c)
    ensures LexLe(a, c)
    decreases |a|
  {
    if |a| > 0 && a[0] == b[0] && b[0] == c[0] {
      LexLeTransitive(a[1..], b[1..], c[1..]);
    }
  }

  lemma {:induction false} LexLeAntisymmetric(a: string, b: string)
    requires LexLe(a, b) && LexLe(b, a)
    ensures a == b
    decreases |a|
  {
    if |a| > 0 {
      LexLeAntisymmetric(a[1..], b[1..]);
      assert a == [a[0]] + a[1..];
      assert b == [b[0]] + b[1..];
    }
  }
}

=== FILE: error_handling.dfy ===
/**
  The exception hierarchy and `handle_error` (litkit/utils/error_handling.py).
  Detail values are modelled as strings, and the formatted traceback, which
  comes from the interpreter, is a parameter.
 */
module ErrorHandling {
  import opened Common

  const GenericMessage := "An unexpected error occurred. Please try again later."

  /** `LitKitError` and its three subclasses. */
  datatype ErrorKind = LitKitBase | AuthError | DatabaseError | PaymentError

  function KindName(k: ErrorKind): string {
    match k
    case LitKitBase => "LitKitError"
    case AuthError => "AuthError"
    case DatabaseError => "DatabaseError"
    case PaymentError => "PaymentError"
  }

  /** A caught exception: one of the library's own, or any other, known by class name and `str()`. */
  datatype Exn =
    | LitKit(kind: ErrorKind, message: string, details: map<string, string>)
    | Other(className: string, text: string)

  /** `LitKitError.__init__` (the subclasses inherit it): missing or empty details become `{}`. */
  function NewLitKitError(kind: ErrorKind, message: string, details: Option<map<string, string>>): (r: Exn)
    ensures r.LitKit? && r.kind == kind && r.message == message
    ensures details.None? ==> r.details == map[]
    ensures details.Some? ==> r.details == details.value
  {
    LitKit(kind, message, if details.Some? && details.value != map[] then details.value else map[])
  }

  /** `type(exception).__name__` */
  function TypeName(e: Exn): string {
    if e.LitKit? then KindName(e.kind) else e.className
  }

  /** `str(exception)`: a library error prints its message, since the base class is given it. */
  function Text(e: Exn): string {
    if e.LitKit? then e.message else e.text
  }

  /** `handle_error`: the message to show and the details to log. */
  function HandleError(e: Exn, userMessage: Option<string>, logTraceback: bool, traceback: string)
    : (r: (string, map<string, string>))
    // message selection
    ensures userMessage.Some? ==> r.0 == userMessage.value
    ensures userMessage.None? && e.LitKit? ==> r.0 == e.message
    ensures userMessage.None? && e.Other? ==> r.0 == GenericMessage
    // the keys of the details
    ensures forall k :: k in r.1 <==>
              k == "type" || k == "message" || (k == "traceback" && logTraceback) || (e.LitKit? && k in e.details)
    // a library error's own details win over the computed ones
    ensures e.LitKit? ==> forall k :: k in e.details ==> r.1[k] == e.details[k]
    ensures !(e.LitKit? && "type" in e.details) ==> r.1["type"] == TypeName(e)
    ensures !(e.LitKit? && "message" in e.details) ==> r.1["message"] == Text(e)
    ensures logTraceback && !(e.LitKit? && "traceback" in e.details) ==> r.1["traceback"] == traceback
  {
    var message :=
      if userMessage.Some? then userMessage.value
      else if e.LitKit? then e.message
      else GenericMessage;
    var base := map["type" := TypeName(e), "message" := Text(e)];
    var withTrace := if logTraceback then base["traceback" := traceback] else base;
    var details := if e.LitKit? && e.details != map[] then withTrace + e.details else withTrace;
    (message, details)
  }

  /** Details of a foreign exception never contain anything but the computed keys. */
  lemma ForeignErrorDetails(className: string, text: string, userMessage: Option<string>, traceback: string)
    ensures HandleError(Other(className, text), userMessage, false, traceback).1
            == map["type" := className, "message" := text]
  {
  }

  /** An error built without details is reported with exactly the computed keys. */
  lemma PlainLibraryErrorDetails(kind: ErrorKind, message: string, logTraceback: bool, traceback: string)
    ensures var r := HandleError(NewLitKitError(kind, message, None), None, logTraceback, traceback);
            && r.0 == message
            && r.1.Keys == {"type", "message"} + (if logTraceback then {"traceback"} else {})
            && r.1["type"] == KindName(kind) && r.1["message"] == message
  {
  }
}

=== FILE: features.dfy ===
/**
  The feature-grid component (litkit/components/features.py): construction
  with its column clamp and colour default, and the distribution of feature
  cards over the columns. The CSS and HTML around each card are not modelled;
  a rendered card is the triple of strings it shows.
 */
module Features {
  import opened Common
  import opened SessionState
  import Base

  /** `BACKGROUND_COLOR` of the theme module, which `get_theme()` reports as the background colour. */
  const ThemeBackground := "#FFFFFF"
  const DefaultIcon := "\U{2728}"

  datatype FeaturesComponent = FeaturesComponent(
    key: string, title: string, features: seq<map<string, string>>,
    columns: int, backgroundColor: string, textColor: string)

  /** `min(max(columns, 1), 4)` */
  function ClampColumns(columns: int): (r: int)
    ensures 1 <= r <= 4
    ensures 1 <= columns <= 4 ==> r == columns
    ensures columns < 1 ==> r == 1
    ensures columns > 4 ==> r == 4
  {
    if columns < 1 then 1 else if columns > 4 then 4 else columns
  }

  /** `Features.__init__`, including the base constructor's key and counter. */
  function NewFeatures(
    s: Session, title: string, features: seq<map<string, string>>, columns: int,
    backgroundColor: Option<string>, textColor: string, key: Option<string>): (r: (Session, FeaturesComponent))
    ensures 1 <= r.1.columns <= 4
    ensures r.1.columns == ClampColumns(columns)
    ensures Truthy(backgroundColor) ==> r.1.backgroundColor == backgroundColor.value
    ensures !Truthy(backgroundColor) ==> r.1.backgroundColor == ThemeBackground
    ensures r.1.features == features && r.1.title == title && r.1.textColor == textColor
    ensures (r.0, r.1.key) == Base.NewComponent(s, "Features", key)
  {
    var (s', k) := Base.NewComponent(s, "Features", key);
    (s', FeaturesComponent(k, title, features, ClampColumns(columns),
                           if Truthy(backgroundColor) then backgroundColor.value else ThemeBackground, textColor))
  }

  /** Clamping a clamped count changes nothing: a constructed component keeps its column count. */
  lemma ClampIdempotent(columns: int)
    ensures ClampColumns(ClampColumns(columns)) == ClampColumns(columns)
  {
  }

  predicate Valid(f: FeaturesComponent) {
    1 <= f.columns <= 4
  }

  datatype Card = Card(icon: string, title: string, description: string)

  /** The card of one feature dictionary: a missing icon is a sparkle, missing texts are empty. */
  function CardOf(feature: map<string, string>): (r: Card)
    ensures "icon" !in feature ==> r.icon == DefaultIcon
    ensures "title" !in feature ==> r.title == ""
    ensures "description" !in feature ==> r.description == ""
    ensures "icon" in feature ==> r.icon == feature["icon"]
    ensures "title" in feature ==> r.title == feature["title"]
    ensures "description" in feature ==> r.description == feature["description"]
  {
    Card(GetOrDefault(feature, "icon", DefaultIcon), GetOrDefault(feature, "title", ""),
         GetOrDefault(feature, "description", ""))
  }

  /** The column a feature goes to: its index modulo the column count, always a valid column. */
  function ColumnOf(i: nat, columns: int): (r: nat)
    requires columns >= 1
    ensures r < columns
  {
    i % columns
  }

  /** Reference layout: the cards of the features whose column is `j`, in feature order. */
  function ColumnCards(fs: seq<map<string, string>>, columns: int, j: int): seq<Card>
    requires columns >= 1
  {
    if fs == [] then []
    else
      var n := |fs| - 1;
      ColumnCards(fs[..n], columns, j) + (if ColumnOf(n, columns) == j then [CardOf(fs[n])] else [])
  }

  /** `Features.render`, reduced to which card goes into which column. */
  method Render(f: FeaturesComponent) returns (cols: seq<seq<Card>>)
    requires Valid(f)
    ensures |cols| == f.columns
    ensures forall j :: 0 <= j < |cols| ==> cols[j] == ColumnCards(f.features, f.columns, j)
  {
    cols := seq(f.columns, _ => []);
    var i := 0;
    while i < |f.features|
      invariant 0 <= i <= |f.features|
      invariant |cols| == f.columns
      invariant forall j :: 0 <= j < |cols| ==> cols[j] == ColumnCards(f.features[..i], f.columns, j)
    {
      var c := ColumnOf(i, f.columns);
      cols := cols[c := cols[c] + [CardOf(f.features[i])]];
      assert f.features[..i + 1][..i] == f.features[..i];
      i := i + 1;
    }
    assert f.features[..i] == f.features;
  }

  /** The cards of a prefix of the features stay at the front of every column. */
  lemma {:induction false} ColumnCardsPrefix(fs: seq<map<string, string>>, columns: int, j: int, n: nat)
    requires columns >= 1 && n <= |fs|
    ensures ColumnCards(fs[..n], columns, j) <= ColumnCards(fs, columns, j)
    decreases |fs| - n
  {
    if n < |fs| {
      var m := |fs| - 1;
      assert fs[..n] == fs[..m][..n];
      ColumnCardsPrefix(fs[..m], columns, j, n);
    } else {
      assert fs[..n] == fs;
    }
  }

  /**
    Feature `i` is in column `i mod columns`, right after the cards of the
    earlier features of that column.
   */
  lemma FeatureInItsColumn(fs: seq<map<string, string>>, columns: int, i: nat)
    requires columns >= 1 && i < |fs|
    ensures var col := ColumnCards(fs, columns, ColumnOf(i, columns));
            var row := |ColumnCards(fs[..i], columns, ColumnOf(i, columns))|;
            row < |col| && col[row] == CardOf(fs[i])
  {
    var j := ColumnOf(i, columns);
    assert fs[..i + 1][..i] == fs[..i];
    assert ColumnCards(fs[..i + 1], columns, j) == ColumnCards(fs[..i], columns, j) + [CardOf(fs[i])];
    ColumnCardsPrefix(fs, columns, j, i + 1);
  }

  /** Total number of cards in columns `0 .. k-1`. */
  function CardsUpTo(fs: seq<map<string, string>>, columns: int, k: nat): nat
    requires columns >= 1
  {
    if k == 0 then 0 else CardsUpTo(fs, columns, k - 1) + |ColumnCards(fs, columns, k - 1)|
  }

  /** Adding one feature adds one card to its column and none elsewhere. */
  lemma {:induction false} CardsUpToStep(fs: seq<map<string, string>>, columns: int, k: nat)
    requires columns >= 1 && fs != []
    ensures var n := |fs| - 1;
            CardsUpTo(fs, columns, k) == CardsUpTo(fs[..n], columns, k) + (if ColumnOf(n, columns) < k then 1 else 0)
  {
    if k > 0 {
      CardsUpToStep(fs, columns, k - 1);
    }
  }

  /** No feature is lost or duplicated: the columns hold exactly as many cards as there are features. */
  lemma {:induction false} ColumnsHoldEveryFeature(fs: seq<map<string, string>>, columns: int)
    requires columns >= 1
    ensures CardsUpTo(fs, columns, columns) == |fs|
  {
    if fs != [] {
      var n := |fs| - 1;
      CardsUpToStep(fs, columns, columns);
      ColumnsHoldEveryFeature(fs[..n], columns);
    } else {
      CardsUpToEmpty(fs, columns, columns);
    }
  }

  lemma {:induction false} CardsUpToEmpty(fs: seq<map<string, string>>, columns: int, k: nat)
    requires columns >= 1 && fs == []
    ensures CardsUpTo(fs, columns, k) == 0
  {
    if k > 0 {
      CardsUpToEmpty(fs, columns, k - 1);
    }
  }
}

=== FILE: payments_db.dfy ===
/**
  Payment and subscription bookkeeping over the Supabase tables
  (litkit/database/payments_db.py). `configured` says whether the Supabase
  client exists; `now` is the ISO timestamp the code would stamp rows with.
  In `has_active_subscription` the current instant is the integer `nowInstant`
  and the ISO-string parse is the function `parse`, which returns `None` where
  Python's `fromisoformat` or the aware/naive comparison would raise.
 */
module PaymentsDb {
  import opened Common
  import opened Tables

  // ---------------------------------------------------------------------------
  // Subscriptions

  /** The sort key `x.get("created_at", "")`. */
  function CreatedKey(r: SubscriptionRow): string {
    r.createdAt.GetOr("")
  }

  lemma LatestStaysLatest(rows: seq<SubscriptionRow>, k: nat)
    requires 0 < k < |rows|
    requires forall i :: 1 <= i < |rows| ==> LexLe(CreatedKey(rows[i]), CreatedKey(rows[k]))
    requires LexLe(CreatedKey(rows[k]), CreatedKey(rows[0]))
    ensures forall i :: 0 <= i < |rows| ==> LexLe(CreatedKey(rows[i]), CreatedKey(rows[0]))
  {
    forall i | 0 <= i < |rows|
      ensures LexLe(CreatedKey(rows[i]), CreatedKey(rows[0]))
    {
      if i == 0 {
        LexLeReflexive(CreatedKey(rows[0]));
      } else {
        LexLeTransitive(CreatedKey(rows[i]), CreatedKey(rows[k]), CreatedKey(rows[0]));
      }
    }
  }

  /**
    The position of `sorted(rows, key=created_at, reverse=True)[0]`. Python's
    sort is stable, also when reversed, so among rows with the greatest key the
    first one in table order is picked.
   */
  function MostRecentIndex(rows: seq<SubscriptionRow>): (k: nat)
    requires |rows| > 0
    ensures k < |rows|
    ensures forall i :: 0 <= i < |rows| ==> LexLe(CreatedKey(rows[i]), CreatedKey(rows[k]))
    ensures forall i :: 0 <= i < k ==> LexLt(CreatedKey(rows[i]), CreatedKey(rows[k]))
    decreases |rows|
  {
    if |rows| == 1 then
      LexLeReflexive(CreatedKey(rows[0]));
      0
    else
      var k := MostRecentIndex(rows[1..]) + 1;
      assert forall i :: 1 <= i < |rows| ==> rows[i] == rows[1..][i - 1];
      if LexLe(CreatedKey(rows[k]), CreatedKey(rows[0])) then
        LatestStaysLatest(rows, k);
        0
      else
        LexLeTotal(CreatedKey(rows[k]), CreatedKey(rows[0]));
        k
  }

  /** `get_user_subscription`: the user's most recently created row, if any. */
  function GetUserSubscription(configured: bool, db: Db, userId: string): (r: Option<SubscriptionRow>)
    ensures !configured ==> r.None?
    ensures configured ==> (r.None? <==> forall x :: x in db.subscriptions ==> x.userId != userId)
    ensures r.Some? ==> r.value in db.subscriptions && r.value.userId == userId
    ensures r.Some? ==> forall x :: x in db.subscriptions && x.userId == userId ==>
                                      LexLe(CreatedKey(x), CreatedKey(r.value))
  {
    if !configured then None
    else
      var mine := RowsOf(db.subscriptions, userId);
      if |mine| == 0 then None
      else
        var k := MostRecentIndex(mine);
        assert mine[k] in mine;
        assert forall x :: x in mine ==> exists i :: 0 <= i < |mine| && mine[i] == x;
        Some(mine[k])
  }

  /** A one-row table: the row is picked even when it has no `created_at`. */
  lemma GetUserSubscriptionSingleRow(db: Db, row: SubscriptionRow)
    requires db.subscriptions == [row]
    ensures GetUserSubscription(true, db, row.userId) == Some(row)
  {
  }

  /** `has_active_subscription` */
  function HasActiveSubscription(configured: bool, db: Db, userId: string, nowInstant: int, parse: string -> Option<int>): (r: bool)
    ensures GetUserSubscription(configured, db, userId).None? ==> !r
    ensures r ==> GetUserSubscription(configured, db, userId).value.status == "active"
    ensures var sub := GetUserSubscription(configured, db, userId);
            sub.Some? && sub.value.status == "active" && Truthy(sub.value.periodEnd) ==>
              (r <==> parse(sub.value.periodEnd.value).Some? && parse(sub.value.periodEnd.value).value > nowInstant)
    ensures var sub := GetUserSubscription(configured, db, userId);
            sub.Some? && sub.value.status == "active" && !Truthy(sub.value.periodEnd) ==> r
  {
    var sub := GetUserSubscription(configured, db, userId);
    if sub.None? then false
    else if sub.value.status != "active" then false
    else if Truthy(sub.value.periodEnd) then
      match parse(sub.value.periodEnd.value)
      case None => false
      case Some(end) => end > nowInstant
    else true
  }

  /** A subscription active now was active at every earlier instant. */
  lemma ActiveAtEarlierInstant(configured: bool, db: Db, userId: string, later: int, earlier: int, parse: string -> Option<int>)
    requires earlier <= later
    requires HasActiveSubscription(configured, db, userId, later, parse)
    ensures HasActiveSubscription(configured, db, userId, earlier, parse)
  {
  }

  /** An "active" row whose period ended at or before now does not count as active. */
  lemma ExpiredActiveIsInactive(db: Db, userId: string, nowInstant: int, parse: string -> Option<int>)
    requires var sub := GetUserSubscription(true, db, userId);
             && sub.Some? && sub.value.status == "active" && Truthy(sub.value.periodEnd)
             && parse(sub.value.periodEnd.value).Some? && parse(sub.value.periodEnd.value).value <= nowInstant
    ensures !HasActiveSubscription(true, db, userId, nowInstant, parse)
  {
  }

  /** The columns `update_subscription_status` writes into a matching row. */
  function StatusPatch(status: string, periodEnd: Option<string>, now: string): SubscriptionRow -> SubscriptionRow {
    (row: SubscriptionRow) =>
      row.(status := status, updatedAt := Some(now), periodEnd := if periodEnd.Some? then periodEnd else row.periodEnd)
  }

  /** `update_subscription_status` */
  function UpdateSubscriptionStatus(configured: bool, db: Db, subscriptionId: string, status: string, periodEnd: Option<string>, now: string): (r: (Db, bool))
    ensures !configured ==> r == (db, false)
    ensures r.1 <==> configured && HasSubscriptionId(db.subscriptions, subscriptionId)
    ensures |r.0.subscriptions| == |db.subscriptions|
    ensures forall i :: 0 <= i < |db.subscriptions| && configured && db.subscriptions[i].subscriptionId == subscriptionId ==>
              && r.0.subscriptions[i].status == status
              && r.0.subscriptions[i].periodEnd == (if periodEnd.Some? then periodEnd else db.subscriptions[i].periodEnd)
              && r.0.subscriptions[i].(status := db.subscriptions[i].status,
                                       updatedAt := db.subscriptions[i].updatedAt,
                                       periodEnd := db.subscriptions[i].periodEnd) == db.subscriptions[i]
    ensures forall i :: 0 <= i < |db.subscriptions| && db.subscriptions[i].subscriptionId != subscriptionId ==>
              r.0.subscriptions[i] == db.subscriptions[i]
    ensures r.0.(subscriptions := db.subscriptions) == db
  {
    if !configured then (db, false)
    else
      (db.(subscriptions := UpdateWhere(db.subscriptions, subscriptionId, StatusPatch(status, periodEnd, now))),
       HasSubscriptionId(db.subscriptions, subscriptionId))
  }

  /** `cancel_subscription`: the status update with "canceled" and no new period end. */
  function CancelSubscription(configured: bool, db: Db, subscriptionId: string, now: string): (r: (Db, bool))
    ensures r == UpdateSubscriptionStatus(configured, db, subscriptionId, "canceled", None, now)
    ensures forall i :: 0 <= i < |db.subscriptions| && configured && db.subscriptions[i].subscriptionId == subscriptionId ==>
              r.0.subscriptions[i].status == "canceled" && r.0.subscriptions[i].periodEnd == db.subscriptions[i].periodEnd
  {
    UpdateSubscriptionStatus(configured, db, subscriptionId, "canceled", None, now)
  }

  /** Once every row of a user carries the canceled id, the user has no active subscription. */
  lemma CanceledUserIsInactive(db: Db, subscriptionId: string, userId: string, now: string, nowInstant: int, parse: string -> Option<int>)
    requires forall i :: 0 <= i < |db.subscriptions| && db.subscriptions[i].userId == userId ==>
               db.subscriptions[i].subscriptionId == subscriptionId
    ensures !HasActiveSubscription(true, CancelSubscription(true, db, subscriptionId, now).0, userId, nowInstant, parse)
  {
    var db' := CancelSubscription(true, db, subscriptionId, now).0;
    var sub := GetUserSubscription(true, db', userId);
    if sub.Some? {
      var i :| 0 <= i < |db'.subscriptions| && db'.subscriptions[i] == sub.value;
      assert db'.subscriptions[i].userId == db.subscriptions[i].userId;
    }
  }

  /** `create_subscription`: appends one row stamped with `now`. */
  function CreateSubscription(
    configured: bool, db: Db, userId: string, customerId: string, subscriptionId: string,
    status: string, priceId: string, periodStart: string, periodEnd: string, now: string): (r: (Db, Option<SubscriptionRow>))
    ensures !configured ==> r == (db, None)
    ensures configured ==> r.1.Some? && r.0.subscriptions == db.subscriptions + [r.1.value]
    ensures configured ==> r.1.value.userId == userId && r.1.value.subscriptionId == subscriptionId
                           && r.1.value.status == status && r.1.value.createdAt == Some(now)
    ensures r.0.(subscriptions := db.subscriptions) == db
  {
    if !configured then (db, None)
    else
      var row := SubscriptionRow(userId, Some(customerId), subscriptionId, status, Some(priceId),
                                 Some(periodStart), Some(periodEnd), None, Some(now), Some(now));
      (db.(subscriptions := db.subscriptions + [row]), Some(row))
  }

  /** A freshly created subscription is the user's latest once `now` sorts after every earlier stamp. */
  lemma CreatedSubscriptionIsLatest(
    db: Db, userId: string, customerId: string, subscriptionId: string,
    status: string, priceId: string, periodStart: string, periodEnd: string, now: string)
    requires forall x :: x in db.subscriptions && x.userId == userId ==> LexLt(CreatedKey(x), now)
    ensures var r := CreateSubscription(true, db, userId, customerId, subscriptionId, status, priceId, periodStart, periodEnd, now);
            GetUserSubscription(true, r.0, userId) == r.1
  {
    var r := CreateSubscription(true, db, userId, customerId, subscriptionId, status, priceId, periodStart, periodEnd, now);
    assert r.1.value in r.0.subscriptions;
  }

  // ---------------------------------------------------------------------------
  // Payments

  /** `create_payment_record`: appends one row stamped with `now`. */
  function CreatePaymentRecord(
    configured: bool, db: Db, userId: string, checkoutId: string, amount: int,
    currency: string, status: string, paymentType: string, now: string): (r: (Db, Option<PaymentRow>))
    ensures !configured ==> r == (db, None)
    ensures configured ==> r.1.Some? && r.0.payments == db.payments + [r.1.value]
    ensures configured ==> r.1.value.amount == Some(amount) && r.1.value.paymentType == paymentType
                           && r.1.value.userId == userId && r.1.value.status == status
    ensures r.0.(payments := db.payments) == db
  {
    if !configured then (db, None)
    else
      var row := PaymentRow(userId, checkoutId, Some(amount), Some(currency), status, paymentType, Some(now));
      (db.(payments := db.payments + [row]), Some(row))
  }

  // ---------------------------------------------------------------------------
  // Credit ledger. `insertAccepted` says whether the database accepts the
  // insert of a fresh zero-credit row; when it refuses, the client raises,
  // `get_user_credits` catches that and returns 0 without a row.

  /** Every stored balance is non-negative. */
  predicate NonNegativeLedger(db: Db) {
    forall u :: u in db.credits ==> db.credits[u] >= 0
  }

  /** `get_user_credits`: reports the balance, creating a zero row for a new user. */
  function GetUserCredits(configured: bool, db: Db, userId: string, insertAccepted: bool): (r: (Db, int))
    ensures r.1 == (if configured then Balance(db, userId) else 0)
    ensures configured && userId !in db.credits ==> r.1 == 0
    ensures configured && insertAccepted ==> userId in r.0.credits && r.0.credits[userId] == r.1
    ensures forall u :: Balance(r.0, u) == Balance(db, u)
    ensures forall u :: u in db.credits ==> u in r.0.credits
    ensures r.0.credits.Keys <= db.credits.Keys + {userId}
    ensures r.0.(credits := db.credits) == db
  {
    if !configured then (db, 0)
    else if userId in db.credits then (db, db.credits[userId])
    else if insertAccepted then (db.(credits := db.credits[userId := 0]), 0)
    else (db, 0)
  }

  /** `add_credits`: stores and returns balance + amount; -1 when no row could be updated. */
  function AddCredits(configured: bool, db: Db, userId: string, amount: int, insertAccepted: bool): (r: (Db, int))
    ensures !configured ==> r == (db, -1)
    ensures configured && (userId in db.credits || insertAccepted) ==>
              && r.1 == Balance(db, userId) + amount
              && userId in r.0.credits && r.0.credits[userId] == r.1
    ensures configured && userId !in db.credits && !insertAccepted ==> r == (db, -1)
    ensures forall u :: u != userId ==> Balance(r.0, u) == Balance(db, u)
    ensures r.0.(credits := db.credits) == db
  {
    if !configured then (db, -1)
    else
      var (db1, current) := GetUserCredits(configured, db, userId, insertAccepted);
      var newAmount := current + amount;
      if userId in db1.credits then (db1.(credits := db1.credits[userId := newAmount]), newAmount)
      else (db1, -1)
  }

  /** `use_credits`: debits only when the balance covers the amount. */
  function UseCredits(configured: bool, db: Db, userId: string, amount: int, insertAccepted: bool): (r: (Db, bool))
    ensures r.1 <==> configured && Balance(db, userId) >= amount && (userId in db.credits || insertAccepted)
    ensures r.1 ==> Balance(r.0, userId) == Balance(db, userId) - amount && Balance(r.0, userId) >= 0
    ensures !r.1 ==> forall u :: Balance(r.0, u) == Balance(db, u)
    ensures forall u :: u != userId ==> Balance(r.0, u) == Balance(db, u)
    ensures r.0.(credits := db.credits) == db
  {
    if !configured then (db, false)
    else
      var (db1, current) := GetUserCredits(configured, db, userId, insertAccepted);
      if current < amount then (db1, false)
      else
        var newAmount := current - amount;
        if userId in db1.credits then (db1.(credits := db1.credits[userId := newAmount]), true)
        else (db1, false)
  }

  /** Debiting keeps every balance non-negative. */
  lemma UseCreditsKeepsLedgerNonNegative(configured: bool, db: Db, userId: string, amount: int, insertAccepted: bool)
    requires NonNegativeLedger(db)
    ensures NonNegativeLedger(UseCredits(configured, db, userId, amount, insertAccepted).0)
  {
    var db' := UseCredits(configured, db, userId, amount, insertAccepted).0;
    forall u | u in db'.credits
      ensures db'.credits[u] >= 0
    {
      assert Balance(db', u) == db'.credits[u];
      if u != userId || !UseCredits(configured, db, userId, amount, insertAccepted).1 {
        assert Balance(db', u) == Balance(db, u);
      }
    }
  }

  /** Adding and then using the same non-negative amount restores the balance. */
  lemma UseAfterAddRestoresBalance(db: Db, userId: string, amount: int, insertAccepted: bool)
    requires amount >= 0 && Balance(db, userId) >= 0
    requires userId in db.credits || insertAccepted
    ensures var (db1, _) := AddCredits(true, db, userId, amount, insertAccepted);
            var (db2, used) := UseCredits(true, db1, userId, amount, insertAccepted);
            used && Balance(db2, userId) == Balance(db, userId)
  {
  }

  /** A successful `add_credits` can itself return -1, the value that also signals failure. */
  lemma AddCreditsSuccessCanReturnMinusOne(db: Db, userId: string)
    requires db.credits == map[userId := 0]
    ensures var r := AddCredits(true, db, userId, -1, true);
            r.1 == -1 && r.0.credits[userId] == -1
  {
  }
}

=== FILE: session.dfy ===
/**
  The per-browser-session key/value store (`st.session_state`), restricted to the
  three keys the core reads and writes: `authenticated`, `user` and
  `component_count`. An absent key is `None`.
 */
module SessionState {
  import opened Common

  /**
    The user dictionary stored under `user`. Only the three keys the code reads
    are modelled; `user_metadata` is itself a string-valued dictionary.
   */
  datatype User = User(id: Option<string>, email: Option<string>, metadata: Option<map<string, string>>)

  /** Python truthiness of the user dictionary: it has at least one key. */
  predicate UserPresent(u: Option<User>) {
    u.Some? && (u.value.id.Some? || u.value.email.Some? || u.value.metadata.Some?)
  }

  datatype Session = Session(authenticated: Option<bool>, user: Option<User>, componentCount: Option<int>)

  /** The store at the start of a browser session: no key set. */
  const Fresh := Session(None, None, None)
}

=== FILE: stripe_client.dfy ===
/**
  Stripe key selection (litkit/payments/stripe_client.py). The configuration
  sources are values: the Streamlit secrets file as sections of string
  settings, the process environment as a string map (`os.getenv` yields `None`
  for an unset variable and the string, possibly empty, for a set one), and
  whether the `stripe` package could be imported.
 */
module StripeClient {
  import opened Common

  datatype StripeEnv = StripeEnv(
    packageAvailable: bool,
    secrets: map<string, map<string, string>>,
    env: map<string, string>)

  /** The key a payment mode selects: the test key for "test", the live key for anything else. */
  function KeyForMode(mode: string, testKey: Option<string>, liveKey: Option<string>): Option<string> {
    if mode == "test" then testKey else liveKey
  }

  /** `get_stripe_key`: a key found comes from the secrets section when there is one, else from the environment. */
  function GetStripeKey(e: StripeEnv): (r: Option<string>)
    ensures "stripe" in e.secrets && r.Some? ==> r.value in e.secrets["stripe"].Values
    ensures "stripe" !in e.secrets && r.Some? ==> r.value in e.env.Values
  {
    if "stripe" in e.secrets then
      var section := e.secrets["stripe"];
      KeyForMode(GetOrDefault(section, "PAYMENT_MODE", "test"), Get(section, "API_KEY_TEST"), Get(section, "API_KEY"))
    else
      KeyForMode(GetOrDefault(e.env, "STRIPE_PAYMENT_MODE", "test"), Get(e.env, "STRIPE_API_KEY_TEST"), Get(e.env, "STRIPE_API_KEY"))
  }

  /** The mode picks the key: "test" (also when unset) the test key, any other mode the live key. */
  lemma KeySelection(e: StripeEnv)
    ensures "stripe" in e.secrets ==>
              var section := e.secrets["stripe"];
              && (GetOrDefault(section, "PAYMENT_MODE", "test") == "test" ==> GetStripeKey(e) == Get(section, "API_KEY_TEST"))
              && (GetOrDefault(section, "PAYMENT_MODE", "test") != "test" ==> GetStripeKey(e) == Get(section, "API_KEY"))
    ensures "stripe" !in e.secrets ==>
              && (GetOrDefault(e.env, "STRIPE_PAYMENT_MODE", "test") == "test" ==> GetStripeKey(e) == Get(e.env, "STRIPE_API_KEY_TEST"))
              && (GetOrDefault(e.env, "STRIPE_PAYMENT_MODE", "test") != "test" ==> GetStripeKey(e) == Get(e.env, "STRIPE_API_KEY"))
  {
  }

  /** A `stripe` secrets section is used exclusively: the environment is never consulted. */
  lemma SecretsShadowEnvironment(e: StripeEnv, env': map<string, string>)
    requires "stripe" in e.secrets
    ensures GetStripeKey(e) == GetStripeKey(e.(env := env'))
  {
  }

  /** An unset mode means test mode, in the secrets and in the environment alike. */
  lemma DefaultModeIsTest(e: StripeEnv)
    ensures "stripe" in e.secrets && "PAYMENT_MODE" !in e.secrets["stripe"] ==>
              GetStripeKey(e) == Get(e.secrets["stripe"], "API_KEY_TEST")
    ensures "stripe" !in e.secrets && "STRIPE_PAYMENT_MODE" !in e.env ==>
              GetStripeKey(e) == Get(e.env, "STRIPE_API_KEY_TEST")
  {
  }

  /** A secrets section with a live mode ignores a test key that is present. */
  lemma LiveModeIgnoresTestKey(e: StripeEnv)
    requires "stripe" in e.secrets
    requires Get(e.secrets["stripe"], "PAYMENT_MODE") == Some("live")
    requires "API_KEY" !in e.secrets["stripe"]
    ensures GetStripeKey(e).None?
  {
  }

  /** `initialize_stripe`: the package must exist and the key must be truthy. */
  function InitializeStripe(e: StripeEnv): (r: bool)
    ensures r <==> e.packageAvailable && GetStripeKey(e).Some? && GetStripeKey(e).value != ""
  {
    if !e.packageAvailable then false
    else Truthy(GetStripeKey(e))
  }

  /** `check_stripe_configured`: the package must exist and some key must be found. */
  function CheckStripeConfigured(e: StripeEnv): (r: bool)
    ensures r <==> e.packageAvailable && GetStripeKey(e).Some?
  {
    if !e.packageAvailable then false
    else GetStripeKey(e) != None
  }

  /**
    Initialising implies being reported configured; the converse fails
    exactly for a key that is present but empty.
   */
  lemma InitializedMeansConfigured(e: StripeEnv)
    ensures InitializeStripe(e) ==> CheckStripeConfigured(e)
    ensures CheckStripeConfigured(e) && !InitializeStripe(e) <==> e.packageAvailable && GetStripeKey(e) == Some("")
  {
  }

  /** A set but empty test key: reported configured, yet initialisation refuses it. */
  lemma EmptyKeyIsConfiguredButNotInitialized()
    ensures var e := StripeEnv(true, map[], map["STRIPE_API_KEY_TEST" := ""]);
            CheckStripeConfigured(e) && !InitializeStripe(e)
  {
    var e := StripeEnv(true, map[], map["STRIPE_API_KEY_TEST" := ""]);
    assert "STRIPE_PAYMENT_MODE" !in e.env;
  }

  /** Both checks together: what callers test before using Stripe. */
  predicate Ready(e: StripeEnv) {
    CheckStripeConfigured(e) && InitializeStripe(e)
  }
}

=== FILE: subscription.dfy ===
/**
  The placeholder subscription helpers (litkit/payments/subscription.py) and
  the subscription gate with its blocking and advisory modes. `st.stop()` ends
  the render pass; it is the `Halt` outcome.
 */
module Subscription {
  import opened Common
  import opened StripeClient

  const PlaceholderMessage := "This is a placeholder. In a real implementation, this would query Supabase for subscription status."
  const RequiresSubscriptionWarning := "⚠️ This feature requires a subscription."
  const RedirectInfo := "In a real implementation, this would redirect to Stripe checkout."

  datatype PlaceholderSubscription = PlaceholderSubscription(status: string, userId: string, message: string)

  /** `get_user_subscription`: nothing without Stripe, otherwise an "inactive" placeholder for the user. */
  function GetUserSubscription(e: StripeEnv, userId: string): (r: Option<PlaceholderSubscription>)
    ensures r.None? <==> !Ready(e)
    ensures r.Some? ==> r.value.status == "inactive" && r.value.userId == userId
  {
    if !(CheckStripeConfigured(e) && InitializeStripe(e)) then None
    else Some(PlaceholderSubscription("inactive", userId, PlaceholderMessage))
  }

  /** `has_active_subscription` (placeholder): no user is ever subscribed. */
  function HasActiveSubscription(userId: string): (r: bool)
    ensures !r
  {
    false
  }

  datatype Plan = Plan(
    id: string, name: string, description: string, price: string,
    features: seq<string>, priceId: string, highlighted: bool)

  /** `get_subscription_plans`; price ids come from the environment with placeholder fallbacks. */
  function GetSubscriptionPlans(env: map<string, string>): (r: seq<Plan>)
    ensures |r| == 2
    ensures r[0].id == "basic" && r[1].id == "pro"
    ensures forall i, j :: 0 <= i < j < |r| ==> r[i].id != r[j].id
    ensures forall i :: 0 <= i < |r| ==> (r[i].highlighted <==> r[i].id == "pro")
    ensures r[0].priceId == GetOrDefault(env, "STRIPE_PRICE_ID", "price_placeholder")
    ensures r[1].priceId == GetOrDefault(env, "STRIPE_PRO_PRICE_ID", "price_pro_placeholder")
  {
    [
      Plan("basic", "Basic", "Essential features for individuals", "$9.99/month",
           ["Access to basic features", "Email support", "1 project"],
           GetOrDefault(env, "STRIPE_PRICE_ID", "price_placeholder"), false),
      Plan("pro", "Professional", "Advanced features for professionals", "$19.99/month",
           ["Access to all features", "Priority support", "Unlimited projects", "Advanced analytics"],
           GetOrDefault(env, "STRIPE_PRO_PRICE_ID", "price_pro_placeholder"), true)
    ]
  }

  /** Exactly one plan is highlighted. */
  lemma ExactlyOneHighlighted(env: map<string, string>)
    ensures var plans := GetSubscriptionPlans(env);
            exists i :: 0 <= i < |plans| && plans[i].highlighted
              && forall j :: 0 <= j < |plans| && j != i ==> !plans[j].highlighted
  {
    var plans := GetSubscriptionPlans(env);
    assert plans[1].highlighted;
  }

  /** The gate either halts the page or lets it continue with the subscription flag. */
  datatype GateOutcome =
    | Halt(notices: seq<Notice>)
    | Continue(subscribed: bool, notices: seq<Notice>)

  /**
    The gate of `add_subscription` for a given subscription state: a
    subscriber passes silently; anyone else sees the warning (and, if the button
    was pressed, the redirect note) and is halted only when `required`.
   */
  function SubscriptionGate(subscribed: bool, required: bool, buttonPressed: bool): (r: GateOutcome)
    ensures r.Halt? <==> required && !subscribed
    ensures subscribed ==> r == Continue(true, [])
    ensures !subscribed ==> |r.notices| >= 1 && r.notices[0] == Warning(RequiresSubscriptionWarning)
    ensures r.Continue? ==> r.subscribed == subscribed
  {
    if subscribed then Continue(true, [])
    else
      var notices := [Warning(RequiresSubscriptionWarning)] + (if buttonPressed then [Info(RedirectInfo)] else []);
      if required then Halt(notices) else Continue(false, notices)
  }

  /** `add_subscription`: the gate with the placeholder's fixed "not subscribed". */
  function AddSubscription(required: bool, buttonPressed: bool): (r: GateOutcome)
    ensures required ==> r.Halt?
    ensures !required ==> r.Continue? && !r.subscribed
    ensures |r.notices| >= 1 && r.notices[0] == Warning(RequiresSubscriptionWarning)
    ensures Info(RedirectInfo) in r.notices <==> buttonPressed
  {
    SubscriptionGate(false, required, buttonPressed)
  }

  /**
    What a page behind the gate produces: the protected content runs only when
    the gate does not halt. `content` is that content applied to the page state.
   */
  function GuardedPage<W>(gate: GateOutcome, w: W, content: W -> W): (r: W)
    ensures gate.Halt? ==> r == w
    ensures gate.Continue? ==> r == content(w)
  {
    if gate.Halt? then w else content(w)
  }

  /** The blocking mode never runs the protected content for a non-subscriber; the advisory mode always does. */
  lemma BlockingModeNeverRunsContent<W>(w: W, content: W -> W, pressed: bool)
    ensures GuardedPage(SubscriptionGate(false, true, pressed), w, content) == w
    ensures GuardedPage(SubscriptionGate(false, false, pressed), w, content) == content(w)
  {
  }
}

=== FILE: subscription_ui.dfy ===
/**
  Subscription status display and the two gate wrappers
  (litkit/components/payments/subscription_ui.py). The status check the
  display consults is the parameter `hasActive`; the source wires in the
  placeholder `Subscription.HasActiveSubscription`.
 */
module SubscriptionUi {
  import opened Common
  import opened SessionState
  import opened Auth
  import Subscription

  const LoginToViewMessage := "Please log in to view subscription status."
  const ActiveMessage := "✅ You have an active subscription."
  const InactiveMessage := "⚠️ You don't have an active subscription."
  const SubscribePrompt := "Subscribe to access premium features."

  /** The id the display looks up: `user.get("id", "")`. */
  function UserIdOf(u: User): string {
    u.id.GetOr("")
  }

  /** `subscription_status` */
  function SubscriptionStatus(s: Session, hasActive: string -> bool): (r: seq<Notice>)
    ensures !IsAuthenticated(s) ==> r == [Warning(LoginToViewMessage)]
    ensures IsAuthenticated(s) && !UserPresent(GetUser(s)) ==> r == []
    ensures Success(ActiveMessage) in r <==>
              IsAuthenticated(s) && UserPresent(GetUser(s)) && hasActive(UserIdOf(s.user.value))
  {
    if !IsAuthenticated(s) then [Warning(LoginToViewMessage)]
    else
      var user := GetUser(s);
      if !UserPresent(user) then []
      else if hasActive(UserIdOf(user.value)) then [Success(ActiveMessage)]
      else [Warning(InactiveMessage), Info(SubscribePrompt)]
  }

  /** An anonymous session never consults the status check: any two checks give the same output. */
  lemma AnonymousStatusIgnoresCheck(s: Session, check1: string -> bool, check2: string -> bool)
    requires !IsAuthenticated(s)
    ensures SubscriptionStatus(s, check1) == SubscriptionStatus(s, check2)
  {
  }

  /** With the placeholder check wired in, the success message is never shown. */
  lemma PlaceholderNeverShowsActive(s: Session)
    ensures Success(ActiveMessage) !in SubscriptionStatus(s, Subscription.HasActiveSubscription)
  {
  }

  /** `subscription_required`: the gate in its blocking mode. */
  function SubscriptionRequired(buttonPressed: bool): (r: Subscription.GateOutcome)
    ensures r.Halt?
    ensures |r.notices| >= 1 && r.notices[0] == Warning(Subscription.RequiresSubscriptionWarning)
    ensures Info(Subscription.RedirectInfo) in r.notices <==> buttonPressed
  {
    Subscription.AddSubscription(true, buttonPressed)
  }

  /** `subscription_upsell`: the gate in its advisory mode. */
  function SubscriptionUpsell(buttonPressed: bool): (r: Subscription.GateOutcome)
    ensures r.Continue? && !r.subscribed
    ensures |r.notices| >= 1 && r.notices[0] == Warning(Subscription.RequiresSubscriptionWarning)
    ensures Info(Subscription.RedirectInfo) in r.notices <==> buttonPressed
  {
    Subscription.AddSubscription(false, buttonPressed)
  }
}

=== FILE: supabase_helpers.dfy ===
/**
  Supabase configuration checks (litkit/utils/supabase_helpers.py). The process
  environment is a string map; whether the shared client object exists is a
  boolean, as elsewhere in the model.
 */
module SupabaseHelpers {
  datatype ConfigStatus = ConfigStatus(
    urlConfigured: bool, keyConfigured: bool, clientInitialized: bool, fullyConfigured: bool)

  /** `get_supabase_configuration_status` */
  function GetSupabaseConfigurationStatus(env: map<string, string>, clientPresent: bool): (r: ConfigStatus)
    ensures r.urlConfigured <==> "SUPABASE_URL" in env
    ensures r.keyConfigured <==> "SUPABASE_KEY" in env
    ensures r.clientInitialized <==> clientPresent
    ensures r.fullyConfigured <==> r.urlConfigured && r.keyConfigured && r.clientInitialized
  {
    var url := "SUPABASE_URL" in env;
    var key := "SUPABASE_KEY" in env;
    ConfigStatus(url, key, clientPresent, url && key && clientPresent)
  }

  /**
    `check_supabase_configured`: the quick check never disagrees with the
    status report. A variable set to "" counts as configured.
   */
  function CheckSupabaseConfigured(env: map<string, string>, clientPresent: bool): (r: bool)
    ensures r == GetSupabaseConfigurationStatus(env, clientPresent).fullyConfigured
  {
    "SUPABASE_URL" in env && "SUPABASE_KEY" in env && clientPresent
  }

  /** Each flag of the report depends on its own input only. */
  lemma FlagsAreIndependent(env: map<string, string>, c1: bool, c2: bool, v: string)
    ensures GetSupabaseConfigurationStatus(env, c1).urlConfigured == GetSupabaseConfigurationStatus(env, c2).urlConfigured
    ensures GetSupabaseConfigurationStatus(env["SUPABASE_KEY" := v], c1).urlConfigured
            == GetSupabaseConfigurationStatus(env, c1).urlConfigured
    ensures GetSupabaseConfigurationStatus(env["SUPABASE_URL" := v], c1).keyConfigured
            == GetSupabaseConfigurationStatus(env, c1).keyConfigured
  {
  }

  /** `create_supabase_tables`: nothing is attempted without a client; with one, the setup SQL is only printed. */
  function CreateSupabaseTables(clientPresent: bool): (r: bool)
    ensures r <==> clientPresent
  {
    if !clientPresent then false else true
  }
}

=== FILE: tables.dfy ===
/**
  The three Supabase tables the billing code reads and writes, and the users
  table the webhook looks customers up in. Timestamps stored in rows are the
  ISO strings the code writes; columns the code may leave null are `Option`s.
 */
module Tables {
  import opened Common

  /** A row of `subscriptions`. */
  datatype SubscriptionRow = SubscriptionRow(
    userId: string,
    customerId: Option<string>,
    subscriptionId: string,
    status: string,
    priceId: Option<string>,
    periodStart: Option<string>,
    periodEnd: Option<string>,
    cancelAtPeriodEnd: Option<bool>,
    createdAt: Option<string>,
    updatedAt: Option<string>)

  /** A row of `payments`. */
  datatype PaymentRow = PaymentRow(
    userId: string,
    checkoutId: string,
    amount: Option<int>,
    currency: Option<string>,
    status: string,
    paymentType: string,
    createdAt: Option<string>)

  /** A row of `users`. */
  datatype UserRow = UserRow(id: string, email: string)

  /**
    The database. `credits` holds one balance per user id: both the ledger
    (which reads the first row) and the webhook (which asks for a single row)
    presume at most one credits row per user.
   */
  datatype Db = Db(
    users: seq<UserRow>,
    subscriptions: seq<SubscriptionRow>,
    payments: seq<PaymentRow>,
    credits: map<string, int>)

  /** The balance the ledger reports for a user: the stored amount, or 0. */
  function Balance(db: Db, userId: string): int {
    if userId in db.credits then db.credits[userId] else 0
  }

  /** The rows of `subscriptions` belonging to a user, in table order. */
  function RowsOf(rows: seq<SubscriptionRow>, userId: string): (r: seq<SubscriptionRow>)
    ensures forall x :: x in r <==> x in rows && x.userId == userId
    ensures |r| <= |rows|
  {
    if rows == [] then []
    else if rows[0].userId == userId then [rows[0]] + RowsOf(rows[1..], userId)
    else RowsOf(rows[1..], userId)
  }

  /** Some row carries the given Stripe subscription id. */
  predicate HasSubscriptionId(rows: seq<SubscriptionRow>, subscriptionId: string) {
    exists i :: 0 <= i < |rows| && rows[i].subscriptionId == subscriptionId
  }

  /**
    `update(...).eq("stripe_subscription_id", id)`: applies `patch` to every
    row carrying the id, in place, and leaves every other row alone.
   */
  function UpdateWhere(rows: seq<SubscriptionRow>, subscriptionId: string, patch: SubscriptionRow -> SubscriptionRow): (r: seq<SubscriptionRow>)
    ensures |r| == |rows|
    ensures forall i :: 0 <= i < |rows| && rows[i].subscriptionId == subscriptionId ==> r[i] == patch(rows[i])
    ensures forall i :: 0 <= i < |rows| && rows[i].subscriptionId != subscriptionId ==> r[i] == rows[i]
  {
    seq(|rows|, i requires 0 <= i < |rows| => if rows[i].subscriptionId == subscriptionId then patch(rows[i]) else rows[i])
  }
}

=== FILE: ui_utils.dfy ===
/**
  HTML escaping and the tooltip helper (litkit/ui/utils.py).

  `SanitizeHtml` is written the way the source computes it: five whole-string
  replacement passes, ampersand first. It is proved equal to a per-character
  reference (`EscapeAll`), which in turn is inverted by `Unescape`.
 */
module UiUtils {
  import opened Common

  /** Characters the sanitizer rewrites. */
  predicate IsSpecial(c: char) {
    c == '&' || c == '<' || c == '>' || c == '"' || c == '\''
  }

  /** Characters that can open a tag or close an attribute value. */
  predicate IsMarkup(c: char) {
    c == '<' || c == '>' || c == '"' || c == '\''
  }

  /** The entity for one character; every other character stands for itself. */
  function Escape(c: char): (r: string)
    ensures IsSpecial(c) <==> r != [c]
    ensures forall i :: 0 <= i < |r| ==> !IsMarkup(r[i])
    ensures |r| >= 1
  {
    match c
    case '&' => "&amp;"
    case '<' => "&lt;"
    case '>' => "&gt;"
    case '"' => "&quot;"
    case '\'' => "&#39;"
    case _ => [c]
  }

  /** Reference escaping: each character is replaced by its own entity, independently. */
  function EscapeAll(s: string): (r: string)
    ensures |r| >= |s|
    ensures forall i :: 0 <= i < |r| ==> !IsMarkup(r[i])
  {
    if s == [] then [] else Escape(s[0]) + EscapeAll(s[1..])
  }

  /** Python's `str.replace(c, rep)` for a single-character pattern. */
  function ReplaceChar(s: string, c: char, rep: string): (r: string)
    ensures c !in s ==> r == s
  {
    if s == [] then [] else (if s[0] == c then rep else [s[0]]) + ReplaceChar(s[1..], c, rep)
  }

  lemma {:induction false} ReplaceCharAppend(a: string, b: string, c: char, rep: string)
    ensures ReplaceChar(a + b, c, rep) == ReplaceChar(a, c, rep) + ReplaceChar(b, c, rep)
  {
    if a == [] {
      assert a + b == b;
    } else {
      assert (a + b)[0] == a[0];
      assert (a + b)[1..] == a[1..] + b;
      ReplaceCharAppend(a[1..], b, c, rep);
    }
  }

  /** The five passes of the source, in the source's order. */
  function Passes(s: string): string {
    var s1 := ReplaceChar(s, '&', "&amp;");
    var s2 := ReplaceChar(s1, '<', "&lt;");
    var s3 := ReplaceChar(s2, '>', "&gt;");
    var s4 := ReplaceChar(s3, '"', "&quot;");
    ReplaceChar(s4, '\'', "&#39;")
  }

  lemma PassesAppend(a: string, b: string)
    ensures Passes(a + b) == Passes(a) + Passes(b)
  {
    ReplaceCharAppend(a, b, '&', "&amp;");
    var a1, b1 := ReplaceChar(a, '&', "&amp;"), ReplaceChar(b, '&', "&amp;");
    ReplaceCharAppend(a1, b1, '<', "&lt;");
    var a2, b2 := ReplaceChar(a1, '<', "&lt;"), ReplaceChar(b1, '<', "&lt;");
    ReplaceCharAppend(a2, b2, '>', "&gt;");
    var a3, b3 := ReplaceChar(a2, '>', "&gt;"), ReplaceChar(b2, '>', "&gt;");
    ReplaceCharAppend(a3, b3, '"', "&quot;");
    var a4, b4 := ReplaceChar(a3, '"', "&quot;"), ReplaceChar(b3, '"', "&quot;");
    ReplaceCharAppend(a4, b4, '\'', "&#39;");
  }

  lemma ReplaceCharSingle(x: char, c: char, rep: string)
    ensures ReplaceChar([x], c, rep) == if x == c then rep else [x]
  {
    assert [x][1..] == [];
  }

  /** On one character the passes agree with the entity table: no entity is rewritten by a later pass. */
  lemma PassesOnChar(x: char)
    ensures Passes([x]) == Escape(x)
  {
    ReplaceCharSingle(x, '&', "&amp;");
    if x == '&' {
      assert '<' !in "&amp;" && '>' !in "&amp;" && '"' !in "&amp;" && '\'' !in "&amp;";
    } else {
      ReplaceCharSingle(x, '<', "&lt;");
      if x == '<' {
        assert '>' !in "&lt;" && '"' !in "&lt;" && '\'' !in "&lt;";
      } else {
        ReplaceCharSingle(x, '>', "&gt;");
        if x == '>' {
          assert '"' !in "&gt;" && '\'' !in "&gt;";
        } else {
          ReplaceCharSingle(x, '"', "&quot;");
          if x == '"' {
            assert '\'' !in "&quot;";
          } else {
            ReplaceCharSingle(x, '\'', "&#39;");
          }
        }
      }
    }
  }

  /** `sanitize_html` */
  function SanitizeHtml(text: Option<string>): (r: string)
    ensures text.None? ==> r == ""
  {
    if text.None? then "" else Passes(text.value)
  }

  /** The sequential passes compute the per-character escaping: each `&` of the input becomes exactly one `&amp;`. */
  lemma {:induction false} SanitizeIsEscapeAll(s: string)
    ensures SanitizeHtml(Some(s)) == EscapeAll(s)
  {
    if s != [] {
      assert s == [s[0]] + s[1..];
      PassesAppend([s[0]], s[1..]);
      PassesOnChar(s[0]);
      SanitizeIsEscapeAll(s[1..]);
    }
  }

  /** The output has no markup characters, and is at least as long as the input. */
  lemma SanitizeIsSafe(s: string)
    ensures forall i :: 0 <= i < |SanitizeHtml(Some(s))| ==> !IsMarkup(SanitizeHtml(Some(s))[i])
    ensures |SanitizeHtml(Some(s))| >= |s|
  {
    SanitizeIsEscapeAll(s);
  }

  /** Input without special characters is passed through unchanged. */
  lemma {:induction false} PlainTextUnchanged(s: string)
    requires forall i :: 0 <= i < |s| ==> !IsSpecial(s[i])
    ensures SanitizeHtml(Some(s)) == s
  {
    SanitizeIsEscapeAll(s);
    PlainEscapeAll(s);
  }

  lemma {:induction false} PlainEscapeAll(s: string)
    requires forall i :: 0 <= i < |s| ==> !IsSpecial(s[i])
    ensures EscapeAll(s) == s
  {
    if s != [] {
      PlainEscapeAll(s[1..]);
    }
  }

  /** Decoding of the five entities; any other character stands for itself. */
  function Unescape(t: string): string
    decreases |t|
  {
    if t == [] then []
    else if t[0] != '&' then [t[0]] + Unescape(t[1..])
    else if |t| >= 5 && t[..5] == "&amp;" then "&" + Unescape(t[5..])
    else if |t| >= 4 && t[..4] == "&lt;" then "<" + Unescape(t[4..])
    else if |t| >= 4 && t[..4] == "&gt;" then ">" + Unescape(t[4..])
    else if |t| >= 6 && t[..6] == "&quot;" then "\"" + Unescape(t[6..])
    else if |t| >= 5 && t[..5] == "&#39;" then "'" + Unescape(t[5..])
    else [t[0]] + Unescape(t[1..])
  }

  lemma UnescapeAmp(u: string)
    ensures Unescape("&amp;" + u) == "&" + Unescape(u)
  {
    var t := "&amp;" + u;
    assert t[1] == "&amp;"[1];
    assert t[..5] == "&amp;" && t[5..] == u;
  }

  lemma UnescapeLt(u: string)
    ensures Unescape("&lt;" + u) == "<" + Unescape(u)
  {
    var t := "&lt;" + u;
    assert t[1] == "&lt;"[1];
    assert t[..4] == "&lt;" && t[4..] == u;
  }

  lemma UnescapeGt(u: string)
    ensures Unescape("&gt;" + u) == ">" + Unescape(u)
  {
    var t := "&gt;" + u;
    assert t[1] == "&gt;"[1];
    assert t[..4] == "&gt;" && t[4..] == u;
  }

  lemma UnescapeQuot(u: string)
    ensures Unescape("&quot;" + u) == "\"" + Unescape(u)
  {
    var t := "&quot;" + u;
    assert t[1] == "&quot;"[1];
    assert t[..6] == "&quot;" && t[6..] == u;
  }

  lemma UnescapeApos(u: string)
    ensures Unescape("&#39;" + u) == "'" + Unescape(u)
  {
    var t := "&#39;" + u;
    assert t[1] == "&#39;"[1];
    assert t[..5] == "&#39;" && t[5..] == u;
  }

  lemma UnescapeEscapeStep(x: char, u: string)
    ensures Unescape(Escape(x) + u) == [x] + Unescape(u)
  {
    match x
    case '&' => UnescapeAmp(u);
    case '<' => UnescapeLt(u);
    case '>' => UnescapeGt(u);
    case '"' => UnescapeQuot(u);
    case '\'' => UnescapeApos(u);
    case _ =>
      var t := Escape(x) + u;
      assert t[0] == x && t[1..] == u;
  }

  /** Round trip: unescaping the sanitized text gives the original text back. */
  lemma {:induction false} UnescapeSanitize(s: string)
    ensures Unescape(SanitizeHtml(Some(s))) == s
  {
    SanitizeIsEscapeAll(s);
    UnescapeEscapeAll(s);
  }

  lemma {:induction false} UnescapeEscapeAll(s: string)
    ensures Unescape(EscapeAll(s)) == s
  {
    if s != [] {
      UnescapeEscapeStep(s[0], EscapeAll(s[1..]));
      UnescapeEscapeAll(s[1..]);
      assert s == [s[0]] + s[1..];
    }
  }

  const TitlePrefix := "\n    <div style=\"position: relative; display: inline-block;\" title=\""
  const ContentPrefix := "\">\n        "
  const TooltipSuffix := "\n    </div>\n    "

  /** What `show_tooltip` hands to `st.markdown`. */
  datatype Tooltip = Tooltip(html: string, key: string)

  /** `show_tooltip`: a missing key (and only a missing one) defaults to "tooltip_" followed by the raw text. */
  function ShowTooltip(text: string, tooltip: string, key: Option<string>): (r: Tooltip)
    ensures key.Some? ==> r.key == key.value
    ensures key.None? ==> r.key == "tooltip_" + text
  {
    Tooltip(TitlePrefix + (SanitizeHtml(Some(tooltip)) + (ContentPrefix + SanitizeHtml(Some(text)) + TooltipSuffix)),
            if key.None? then "tooltip_" + text else key.value)
  }

  /**
    The keyword parameters of `st.markdown` besides the body. `key` is not one
    of them: the component base class leaves it out of its own `st.markdown`
    calls for that reason (litkit/components/base.py:58 and :67).
   */
  const MarkdownKeywords: set<string> := {"unsafe_allow_html", "help"}

  /** What a call `st.markdown(body, **keywords)` does: it renders, or it raises `TypeError` naming an unexpected keyword. */
  datatype MarkdownOutcome = Rendered(html: string) | TypeError(keyword: string)

  /** `st.markdown` called with the keyword arguments `keywords`, in call order. */
  function StMarkdown(body: string, keywords: seq<string>): (r: MarkdownOutcome)
    ensures r.Rendered? <==> forall i :: 0 <= i < |keywords| ==> keywords[i] in MarkdownKeywords
    ensures r.Rendered? ==> r.html == body
    ensures r.TypeError? ==> r.keyword in keywords && r.keyword !in MarkdownKeywords
  {
    if keywords == [] then Rendered(body)
    else if keywords[0] !in MarkdownKeywords then TypeError(keywords[0])
    else StMarkdown(body, keywords[1..])
  }

  /** `show_tooltip` as written: it passes `key=key` to `st.markdown`, which raises on every call. */
  function ShowTooltipAsWritten(text: string, tooltip: string, key: Option<string>): (r: MarkdownOutcome)
    ensures r == TypeError("key")
  {
    var html := ShowTooltip(text, tooltip, key).html;
    var keywords := ["unsafe_allow_html", "key"];
    assert keywords[0] in MarkdownKeywords && keywords[1..] == ["key"];
    assert StMarkdown(html, ["key"]) == TypeError("key");
    StMarkdown(html, keywords)
  }

  /** `show_tooltip` as evidently intended: the same html, rendered without the unsupported keyword. */
  function RenderTooltip(text: string, tooltip: string, key: Option<string>): (r: MarkdownOutcome)
    ensures r == Rendered(ShowTooltip(text, tooltip, key).html)
  {
    StMarkdown(ShowTooltip(text, tooltip, key).html, ["unsafe_allow_html"])
  }

  /**
    The written call never shows the tooltip, whatever its arguments; the
    corrected call shows the html whose title decodes to the tooltip.
   */
  lemma TooltipKeyIsRejected(text: string, tooltip: string, key: Option<string>)
    ensures ShowTooltipAsWritten(text, tooltip, key).TypeError?
    ensures RenderTooltip(text, tooltip, key).Rendered?
    ensures var html := RenderTooltip(text, tooltip, key).html;
            var rest := html[|TitlePrefix|..];
            Unescape(rest[..QuoteIndex(rest)]) == tooltip
  {
    TooltipTitleIsTooltip(text, tooltip, key);
  }

  /** Index of the first double quote of `s`, or `|s|` when there is none. */
  function QuoteIndex(s: string): (r: nat)
    ensures r <= |s|
    ensures forall i :: 0 <= i < r ==> s[i] != '"'
    ensures r < |s| ==> s[r] == '"'
  {
    if s == [] then 0 else if s[0] == '"' then 0 else 1 + QuoteIndex(s[1..])
  }

  lemma {:induction false} QuoteIndexAppend(a: string, b: string)
    requires forall i :: 0 <= i < |a| ==> a[i] != '"'
    ensures QuoteIndex(a + b) == |a| + QuoteIndex(b)
  {
    if a != [] {
      assert (a + b)[0] == a[0] && a[0] != '"';
      assert (a + b)[1..] == a[1..] + b;
      assert forall i :: 0 <= i < |a[1..]| ==> a[1..][i] == a[i + 1];
      QuoteIndexAppend(a[1..], b);
      assert QuoteIndex(a + b) == 1 + QuoteIndex(a[1..] + b);
    } else {
      assert a + b == b;
    }
  }

  /**
    The title attribute cannot be broken out of: reading the html after
    `title="` up to the next double quote yields exactly the sanitized tooltip,
    which unescapes to the tooltip itself.
   */
  lemma TooltipTitleIsTooltip(text: string, tooltip: string, key: Option<string>)
    ensures var rest := ShowTooltip(text, tooltip, key).html[|TitlePrefix|..];
            && rest[..QuoteIndex(rest)] == SanitizeHtml(Some(tooltip))
            && Unescape(rest[..QuoteIndex(rest)]) == tooltip
  {
    var san := SanitizeHtml(Some(tooltip));
    var html := ShowTooltip(text, tooltip, key).html;
    var tail := ContentPrefix + SanitizeHtml(Some(text)) + TooltipSuffix;
    var rest := html[|TitlePrefix|..];
    assert rest == san + tail;
    SanitizeIsSafe(tooltip);
    QuoteIndexAppend(san, tail);
    assert tail[0] == '"';
    assert rest[..QuoteIndex(rest)] == san;
    UnescapeSanitize(tooltip);
  }
}

=== FILE: webhook.dfy ===
/**
  The Stripe webhook edge function (supabase/functions/stripe-webhook/index.ts)
  as a function from a request and the database to the new database and the
  HTTP response.

  What the handler obtains from Stripe or Supabase is given:
  - signature verification is the request's `verification` outcome;
  - `stripe.subscriptions.retrieve` is the function `retrieve`, whose failure
    is the exception that reaches the outer `catch` (500);
  - the database operations the handler checks for errors may be rejected:
    `fails` is the set of operations the database refuses in this run;
  - `toIso` is `new Date(seconds * 1000).toISOString()` and `now` the current ISO time.
  The handler runs its writes one after another with no transaction, so a
  failure leaves the writes before it in place.
 */
module Webhook {
  import opened Common
  import opened Tables
  import PaymentsDb

  /** The fields of a Stripe Subscription object the handler reads. */
  datatype StripeSubscription = StripeSubscription(
    id: string, status: string, priceId: Option<string>,
    periodStart: int, periodEnd: int, cancelAtPeriodEnd: bool)

  /** The fields of a Stripe Checkout Session the handler reads; `subscription` is already the id. */
  datatype CheckoutSession = CheckoutSession(
    id: string, customerEmail: Option<string>, customer: Option<string>, mode: string,
    amountTotal: Option<int>, currency: Option<string>, subscription: Option<string>)

  /** The fields of a Stripe Invoice the handler reads; `subscription` is already the id. */
  datatype Invoice = Invoice(id: string, subscription: Option<string>, amountPaid: Option<int>, currency: Option<string>)

  /** A verified event: the four types the handler acts on, and every other type. */
  datatype Event =
    | CheckoutSessionCompleted(session: CheckoutSession)
    | InvoicePaymentSucceeded(invoice: Invoice)
    | CustomerSubscriptionUpdated(subscription: StripeSubscription)
    | CustomerSubscriptionDeleted(subscription: StripeSubscription)
    | Unhandled(eventType: string)

  const HandledTypes: set<string> :=
    {"checkout.session.completed", "invoice.payment_succeeded",
     "customer.subscription.updated", "customer.subscription.deleted"}

  /** `event.type` */
  function EventType(e: Event): string {
    match e
    case CheckoutSessionCompleted(_) => "checkout.session.completed"
    case InvoicePaymentSucceeded(_) => "invoice.payment_succeeded"
    case CustomerSubscriptionUpdated(_) => "customer.subscription.updated"
    case CustomerSubscriptionDeleted(_) => "customer.subscription.deleted"
    case Unhandled(t) => t
  }

  /** An event whose variant agrees with its type string. */
  predicate WellFormed(e: Event) {
    e.Unhandled? ==> e.eventType !in HandledTypes
  }

  datatype Verification = Verified(event: Event) | VerificationFailed(reason: string)

  /** The `Stripe-Signature` header and what verifying the body against it gave. */
  datatype Request = Request(signature: Option<string>, verification: Verification)

  datatype Fetch = Fetched(subscription: StripeSubscription) | FetchFailed(reason: string)

  datatype Response = Response(status: int, body: string)

  /** The database calls whose `error` the handler checks. */
  datatype Op = InsertPayment | UpdateCredits | InsertCredits | InsertSubscription | UpdateSubscription

  const Received := Response(200, "{\"received\":true}")

  // ---------------------------------------------------------------------------
  // `.single()` lookups: an error unless exactly one row matches

  /** The rows a `.eq(...)` filter keeps, in table order. */
  function Where<T(!new)>(rows: seq<T>, keep: T -> bool): (r: seq<T>)
    ensures forall x :: x in r <==> x in rows && keep(x)
  {
    if rows == [] then []
    else if keep(rows[0]) then [rows[0]] + Where(rows[1..], keep)
    else Where(rows[1..], keep)
  }

  /** Index `i` holds the one and only row the filter keeps. */
  predicate OnlyMatchAt<T>(rows: seq<T>, keep: T -> bool, i: int) {
    0 <= i < |rows| && keep(rows[i]) && forall j :: 0 <= j < |rows| && keep(rows[j]) ==> j == i
  }

  /** A filter keeps exactly one row exactly when exactly one index matches. */
  lemma {:induction false} WhereHasOne<T(!new)>(rows: seq<T>, keep: T -> bool)
    ensures |Where(rows, keep)| == 1 <==> exists i :: OnlyMatchAt(rows, keep, i)
  {
    if rows != [] {
      var t := rows[1..];
      WhereHasOne(t, keep);
      var w := Where(t, keep);
      if keep(rows[0]) {
        if |w| == 0 {
          forall j | 0 < j < |rows|
            ensures !keep(rows[j])
          {
            assert rows[j] == t[j - 1] && rows[j] in t;
          }
          assert OnlyMatchAt(rows, keep, 0);
        } else {
          assert w[0] in w;
          var k :| 0 <= k < |t| && t[k] == w[0];
          forall i | 0 <= i < |rows|
            ensures !OnlyMatchAt(rows, keep, i)
          {
            assert keep(rows[k + 1]) && rows[k + 1] == t[k];
            if i == 0 {
              assert k + 1 != i;
            } else {
              assert 0 != i;
            }
          }
        }
      } else {
        if exists i :: OnlyMatchAt(rows, keep, i) {
          var i :| OnlyMatchAt(rows, keep, i);
          assert i > 0;
          forall j | 0 <= j < |t| && keep(t[j])
            ensures j == i - 1
          {
            assert rows[j + 1] == t[j];
          }
          assert OnlyMatchAt(t, keep, i - 1);
        }
        if exists i :: OnlyMatchAt(t, keep, i) {
          var i :| OnlyMatchAt(t, keep, i);
          forall j | 0 <= j < |rows| && keep(rows[j])
            ensures j == i + 1
          {
            assert j > 0;
            assert rows[j] == t[j - 1];
          }
          assert OnlyMatchAt(rows, keep, i + 1);
        }
      }
    }
  }

  /**
    `from('users').select('id').eq('email', email).single()`: an id exactly when
    one row, and only one, carries the email; zero or several rows give none.
   */
  function SingleUserId(users: seq<UserRow>, email: string): (r: Option<string>)
    ensures r.Some? <==> exists i :: 0 <= i < |users| && users[i].email == email
                                     && forall j :: 0 <= j < |users| && users[j].email == email ==> j == i
    ensures r.Some? ==> forall x :: x in users && x.email == email ==> x.id == r.value
    ensures (forall x :: x in users ==> x.email != email) ==> r.None?
  {
    var keep := (x: UserRow) => x.email == email;
    var m := Where(users, keep);
    WhereHasOne(users, keep);
    assert forall i :: OnlyMatchAt(users, keep, i) <==>
             0 <= i < |users| && users[i].email == email && forall j :: 0 <= j < |users| && users[j].email == email ==> j == i;
    if |m| == 1 then
      assert m[0] in m;
      Some(m[0].id)
    else
      assert |m| > 0 ==> m[0] in m;
      None
  }

  /**
    `from('subscriptions').select('user_id').eq('stripe_subscription_id', id).single()`:
    an owner exactly when one row, and only one, carries the subscription id.
   */
  function SingleOwner(rows: seq<SubscriptionRow>, subscriptionId: string): (r: Option<string>)
    ensures r.Some? <==> exists i :: 0 <= i < |rows| && rows[i].subscriptionId == subscriptionId
                                     && forall j :: 0 <= j < |rows| && rows[j].subscriptionId == subscriptionId ==> j == i
    ensures r.Some? ==> forall x :: x in rows && x.subscriptionId == subscriptionId ==> x.userId == r.value
    ensures r.Some? ==> HasSubscriptionId(rows, subscriptionId)
    ensures !HasSubscriptionId(rows, subscriptionId) ==> r.None?
  {
    var keep := (x: SubscriptionRow) => x.subscriptionId == subscriptionId;
    var m := Where(rows, keep);
    WhereHasOne(rows, keep);
    assert forall i :: OnlyMatchAt(rows, keep, i) <==>
             0 <= i < |rows| && rows[i].subscriptionId == subscriptionId && forall j :: 0 <= j < |rows| && rows[j].subscriptionId == subscriptionId ==> j == i;
    if |m| == 1 then
      assert m[0] in m;
      Some(m[0].userId)
    else
      assert |m| > 0 ==> m[0] in m;
      None
  }

  /** Same number of rows, and every row not carrying `subscriptionId` is unchanged. */
  predicate OtherRowsKept(before: seq<SubscriptionRow>, after: seq<SubscriptionRow>, subscriptionId: string) {
    && |after| == |before|
    && forall i :: 0 <= i < |before| && before[i].subscriptionId != subscriptionId ==> after[i] == before[i]
  }

  // ---------------------------------------------------------------------------
  // Event handlers

  /** The credits granted for a one-time payment: one per whole 100 minor units. */
  function CreditsFor(amountTotal: int): (c: int)
    ensures c * 100 <= amountTotal < c * 100 + 100
  {
    amountTotal / 100
  }

  /** Adds `creditAmount` to the user's credits row, creating the row when there is none. */
  function GrantCredits(db: Db, userId: string, creditAmount: int, fails: set<Op>): (r: (Db, Response))
    ensures r.1 == Received || r.1.status == 500
    ensures r.1 == Received ==> Balance(r.0, userId) == Balance(db, userId) + creditAmount && userId in r.0.credits
    ensures r.1 != Received ==> r.0 == db
    ensures userId !in db.credits && r.1 == Received ==> r.0.credits[userId] == creditAmount
    ensures forall u :: u != userId ==> Balance(r.0, u) == Balance(db, u)
    ensures r.0.(credits := db.credits) == db
  {
    if userId in db.credits then
      if UpdateCredits in fails then (db, Response(500, "Error updating credits"))
      else (db.(credits := db.credits[userId := db.credits[userId] + creditAmount]), Received)
    else
      if InsertCredits in fails then (db, Response(500, "Error inserting credits"))
      else (db.(credits := db.credits[userId := creditAmount]), Received)
  }

  /** The payment row a completed one-time checkout inserts. */
  function OneTimePayment(userId: string, s: CheckoutSession): PaymentRow {
    PaymentRow(userId, s.id, s.amountTotal, s.currency, "succeeded", "one-time", None)
  }

  /** The subscription row a completed subscription checkout inserts. */
  function NewSubscriptionRow(userId: string, s: CheckoutSession, subscriptionId: string, sub: StripeSubscription,
                              toIso: int -> string, now: string): SubscriptionRow {
    SubscriptionRow(userId, s.customer, subscriptionId, sub.status, sub.priceId,
                    Some(toIso(sub.periodStart)), Some(toIso(sub.periodEnd)), None, Some(now), Some(now))
  }

  /** `checkout.session.completed` */
  function CheckoutCompleted(s: CheckoutSession, db: Db, retrieve: string -> Fetch, toIso: int -> string, now: string, fails: set<Op>): (r: (Db, Response))
    ensures !Truthy(s.customerEmail) ==> r == (db, Response(400, "No customer email in session"))
    ensures Truthy(s.customerEmail) && SingleUserId(db.users, s.customerEmail.value).None? ==>
              r == (db, Response(404, "User not found"))
    // subscription mode of a known customer: retrieve, then insert one row
    ensures Truthy(s.customerEmail) && SingleUserId(db.users, s.customerEmail.value).Some?
            && s.mode == "subscription" && Truthy(s.subscription) ==>
              var userId := SingleUserId(db.users, s.customerEmail.value).value;
              var fetch := retrieve(s.subscription.value);
              && (fetch.FetchFailed? ==> r == (db, Response(500, "Webhook error: " + fetch.reason)))
              && (fetch.Fetched? && InsertSubscription in fails ==>
                    r == (db, Response(500, "Error creating subscription record")))
              && (fetch.Fetched? && InsertSubscription !in fails ==>
                    r == (db.(subscriptions := db.subscriptions
                                + [NewSubscriptionRow(userId, s, s.subscription.value, fetch.subscription, toIso, now)]),
                          Received))
    // payment mode of a known customer: the payment row first, credits only for a nonzero amount
    ensures Truthy(s.customerEmail) && SingleUserId(db.users, s.customerEmail.value).Some? && s.mode == "payment" ==>
              var userId := SingleUserId(db.users, s.customerEmail.value).value;
              && (InsertPayment in fails ==> r == (db, Response(500, "Error creating payment record")))
              && (InsertPayment !in fails && (s.amountTotal.None? || s.amountTotal.value == 0) ==>
                    r == (db.(payments := db.payments + [OneTimePayment(userId, s)]), Received))
    // any other mode, or subscription mode without an id: 200 and nothing written
    ensures Truthy(s.customerEmail) && SingleUserId(db.users, s.customerEmail.value).Some?
            && (s.mode !in {"payment", "subscription"} || (s.mode == "subscription" && !Truthy(s.subscription))) ==>
              r == (db, Received)
    ensures r.1.status in {200, 400, 404, 500}
    ensures r.0.users == db.users
  {
    if !Truthy(s.customerEmail) then (db, Response(400, "No customer email in session"))
    else match SingleUserId(db.users, s.customerEmail.value)
      case None => (db, Response(404, "User not found"))
      case Some(userId) =>
        if s.mode == "payment" then
          if InsertPayment in fails then (db, Response(500, "Error creating payment record"))
          else
            var db1 := db.(payments := db.payments + [OneTimePayment(userId, s)]);
            if s.amountTotal.Some? && s.amountTotal.value != 0 then
              GrantCredits(db1, userId, CreditsFor(s.amountTotal.value), fails)
            else (db1, Received)
        else if s.mode == "subscription" then
          if Truthy(s.subscription) then
            var subscriptionId := s.subscription.value;
            match retrieve(subscriptionId)
            case FetchFailed(reason) => (db, Response(500, "Webhook error: " + reason))
            case Fetched(sub) =>
              if InsertSubscription in fails then (db, Response(500, "Error creating subscription record"))
              else (db.(subscriptions := db.subscriptions + [NewSubscriptionRow(userId, s, subscriptionId, sub, toIso, now)]), Received)
          else (db, Received)
        else (db, Received)
  }

  /** The columns `invoice.payment_succeeded` refreshes from the retrieved subscription. */
  function RenewalPatch(sub: StripeSubscription, toIso: int -> string, now: string): SubscriptionRow -> SubscriptionRow {
    (row: SubscriptionRow) =>
      row.(status := sub.status, periodStart := Some(toIso(sub.periodStart)),
           periodEnd := Some(toIso(sub.periodEnd)), updatedAt := Some(now))
  }

  /** `invoice.payment_succeeded` */
  function InvoicePaid(inv: Invoice, db: Db, retrieve: string -> Fetch, toIso: int -> string, now: string, fails: set<Op>): (r: (Db, Response))
    ensures !Truthy(inv.subscription) ==> r == (db, Received)
    ensures Truthy(inv.subscription) && retrieve(inv.subscription.value).FetchFailed? ==>
              r == (db, Response(500, "Webhook error: " + retrieve(inv.subscription.value).reason))
    ensures Truthy(inv.subscription) && retrieve(inv.subscription.value).Fetched?
            && SingleOwner(db.subscriptions, inv.subscription.value).None? ==>
              r == (db, Response(404, "Subscription not found"))
    // a known subscription: update its rows, then insert the payment; the update stays if the insert fails
    ensures Truthy(inv.subscription) && retrieve(inv.subscription.value).Fetched?
            && SingleOwner(db.subscriptions, inv.subscription.value).Some? ==>
              var id := inv.subscription.value;
              var sub := retrieve(id).subscription;
              var userId := SingleOwner(db.subscriptions, id).value;
              && (UpdateSubscription in fails ==> r == (db, Response(500, "Error updating subscription")))
              && (UpdateSubscription !in fails ==>
                    && OtherRowsKept(db.subscriptions, r.0.subscriptions, id)
                    && (forall i :: 0 <= i < |db.subscriptions| && db.subscriptions[i].subscriptionId == id ==>
                          r.0.subscriptions[i] == db.subscriptions[i].(
                            status := sub.status, periodStart := Some(toIso(sub.periodStart)),
                            periodEnd := Some(toIso(sub.periodEnd)), updatedAt := Some(now)))
                    && (InsertPayment in fails ==>
                          r.1 == Response(500, "Error creating payment record") && r.0.payments == db.payments)
                    && (InsertPayment !in fails ==>
                          && r.1 == Received
                          && r.0.payments == db.payments
                               + [PaymentRow(userId, inv.id, inv.amountPaid, inv.currency, "succeeded", "subscription", None)]))
    ensures r.1.status in {200, 404, 500}
    ensures r.1.status == 404 ==> r.0 == db
    ensures r.0.users == db.users && r.0.credits == db.credits
  {
    if !Truthy(inv.subscription) then (db, Received)
    else
      var subscriptionId := inv.subscription.value;
      match retrieve(subscriptionId)
      case FetchFailed(reason) => (db, Response(500, "Webhook error: " + reason))
      case Fetched(sub) =>
        match SingleOwner(db.subscriptions, subscriptionId)
        case None => (db, Response(404, "Subscription not found"))
        case Some(userId) =>
          if UpdateSubscription in fails then (db, Response(500, "Error updating subscription"))
          else
            var db1 := db.(subscriptions := UpdateWhere(db.subscriptions, subscriptionId, RenewalPatch(sub, toIso, now)));
            if InsertPayment in fails then (db1, Response(500, "Error creating payment record"))
            else
              (db1.(payments := db1.payments + [PaymentRow(userId, inv.id, inv.amountPaid, inv.currency, "succeeded", "subscription", None)]),
               Received)
  }

  /** The columns `customer.subscription.updated` copies from the event. */
  function UpdatePatch(sub: StripeSubscription, toIso: int -> string, now: string): SubscriptionRow -> SubscriptionRow {
    (row: SubscriptionRow) =>
      row.(status := sub.status, cancelAtPeriodEnd := Some(sub.cancelAtPeriodEnd),
           periodEnd := Some(toIso(sub.periodEnd)), updatedAt := Some(now))
  }

  /** `customer.subscription.updated` */
  function SubscriptionUpdated(sub: StripeSubscription, db: Db, toIso: int -> string, now: string, fails: set<Op>): (r: (Db, Response))
    ensures !HasSubscriptionId(db.subscriptions, sub.id) ==> r == (db, Response(404, "Subscription not found"))
    // `.single()` also refuses an id carried by several rows
    ensures SingleOwner(db.subscriptions, sub.id).None? ==> r == (db, Response(404, "Subscription not found"))
    ensures SingleOwner(db.subscriptions, sub.id).Some? && UpdateSubscription in fails ==>
              r == (db, Response(500, "Error updating subscription"))
    ensures SingleOwner(db.subscriptions, sub.id).Some? && UpdateSubscription !in fails ==>
              && r.1 == Received
              && OtherRowsKept(db.subscriptions, r.0.subscriptions, sub.id)
              && forall i :: 0 <= i < |db.subscriptions| && db.subscriptions[i].subscriptionId == sub.id ==>
                   r.0.subscriptions[i] == db.subscriptions[i].(
                     status := sub.status, cancelAtPeriodEnd := Some(sub.cancelAtPeriodEnd),
                     periodEnd := Some(toIso(sub.periodEnd)), updatedAt := Some(now))
    ensures r.1.status in {200, 404, 500}
    ensures r.1.status != 200 ==> r.0 == db
    ensures r.0.(subscriptions := db.subscriptions) == db
  {
    match SingleOwner(db.subscriptions, sub.id)
    case None => (db, Response(404, "Subscription not found"))
    case Some(_) =>
      if UpdateSubscription in fails then (db, Response(500, "Error updating subscription"))
      else (db.(subscriptions := UpdateWhere(db.subscriptions, sub.id, UpdatePatch(sub, toIso, now))), Received)
  }

  /** The columns `customer.subscription.deleted` writes. */
  function CancelPatch(now: string): SubscriptionRow -> SubscriptionRow {
    (row: SubscriptionRow) => row.(status := "canceled", updatedAt := Some(now))
  }

  /** `customer.subscription.deleted`: no lookup first, so an unknown id still answers 200. */
  function SubscriptionDeleted(sub: StripeSubscription, db: Db, now: string, fails: set<Op>): (r: (Db, Response))
    ensures r.1 == Received || r.1 == Response(500, "Error updating subscription")
    ensures r.1 != Received ==> r.0 == db
    ensures r.0.(subscriptions := db.subscriptions) == db
  {
    if UpdateSubscription in fails then (db, Response(500, "Error updating subscription"))
    else (db.(subscriptions := UpdateWhere(db.subscriptions, sub.id, CancelPatch(now))), Received)
  }

  /** The `switch (event.type)`; every other type falls through to the 200 reply. */
  function Dispatch(e: Event, db: Db, retrieve: string -> Fetch, toIso: int -> string, now: string, fails: set<Op>): (r: (Db, Response)) {
    match e
    case CheckoutSessionCompleted(s) => CheckoutCompleted(s, db, retrieve, toIso, now, fails)
    case InvoicePaymentSucceeded(inv) => InvoicePaid(inv, db, retrieve, toIso, now, fails)
    case CustomerSubscriptionUpdated(sub) => SubscriptionUpdated(sub, db, toIso, now, fails)
    case CustomerSubscriptionDeleted(sub) => SubscriptionDeleted(sub, db, now, fails)
    case Unhandled(_) => (db, Received)
  }

  /** The request handler passed to `serve`. */
  function Handle(req: Request, db: Db, retrieve: string -> Fetch, toIso: int -> string, now: string, fails: set<Op>): (r: (Db, Response))
    ensures !Truthy(req.signature) ==> r == (db, Response(400, "Missing Stripe signature"))
    ensures Truthy(req.signature) && req.verification.VerificationFailed? ==>
              r == (db, Response(400, "Webhook signature verification failed: " + req.verification.reason))
    ensures r.1.status in {200, 400, 404, 500}
    ensures r.1.status == 400 || r.1.status == 404 ==> r.0 == db
    ensures r.0.users == db.users
    ensures Truthy(req.signature) && req.verification.Verified? && req.verification.event.Unhandled? ==> r == (db, Received)
  {
    if !Truthy(req.signature) then (db, Response(400, "Missing Stripe signature"))
    else match req.verification
      case VerificationFailed(reason) => (db, Response(400, "Webhook signature verification failed: " + reason))
      case Verified(e) => Dispatch(e, db, retrieve, toIso, now, fails)
  }

  /** A request carrying a verified event. */
  function Signed(e: Event): Request {
    Request(Some("t=0,v1=signature"), Verified(e))
  }

  // ---------------------------------------------------------------------------
  // Properties of the handler

  /** A well-formed event whose type is not one of the four changes nothing and answers 200. */
  lemma UnknownTypeChangesNothing(e: Event, db: Db, retrieve: string -> Fetch, toIso: int -> string, now: string, fails: set<Op>)
    requires WellFormed(e) && EventType(e) !in HandledTypes
    ensures Handle(Signed(e), db, retrieve, toIso, now, fails) == (db, Received)
  {
  }

  /**
    A paid one-time checkout of a known customer, with no rejected write:
    one "succeeded"/"one-time" payment row is appended and the balance grows by
    floor(amount_total / 100); a user without a credits row gets exactly that.
   */
  lemma OneTimeCheckoutGrantsCredits(s: CheckoutSession, db: Db, userId: string, retrieve: string -> Fetch, toIso: int -> string, now: string)
    requires Truthy(s.customerEmail) && SingleUserId(db.users, s.customerEmail.value) == Some(userId)
    requires s.mode == "payment" && s.amountTotal.Some? && s.amountTotal.value != 0
    ensures var r := Handle(Signed(CheckoutSessionCompleted(s)), db, retrieve, toIso, now, {});
            && r.1 == Received
            && r.0.payments == db.payments + [OneTimePayment(userId, s)]
            && Balance(r.0, userId) == Balance(db, userId) + s.amountTotal.value / 100
            && (userId !in db.credits ==> r.0.credits[userId] == s.amountTotal.value / 100)
            && (forall u :: u != userId ==> Balance(r.0, u) == Balance(db, u))
            && r.0.subscriptions == db.subscriptions
  {
  }

  /**
    A subscription checkout of a known customer, whatever status Stripe reports:
    with the insert accepted, exactly one row built from the retrieved
    subscription is appended and no other table changes; with it rejected, the
    handler answers 500 and writes nothing.
   */
  lemma SubscriptionCheckoutRecordsRow(
    s: CheckoutSession, db: Db, userId: string, sub: StripeSubscription, retrieve: string -> Fetch,
    toIso: int -> string, now: string, fails: set<Op>)
    requires Truthy(s.customerEmail) && SingleUserId(db.users, s.customerEmail.value) == Some(userId)
    requires s.mode == "subscription" && Truthy(s.subscription) && retrieve(s.subscription.value) == Fetched(sub)
    ensures var r := Handle(Signed(CheckoutSessionCompleted(s)), db, retrieve, toIso, now, fails);
            && (InsertSubscription !in fails ==>
                  && r.1 == Received
                  && r.0.subscriptions == db.subscriptions + [NewSubscriptionRow(userId, s, s.subscription.value, sub, toIso, now)]
                  && r.0.payments == db.payments && r.0.credits == db.credits && r.0.users == db.users)
            && (InsertSubscription in fails ==> r == (db, Response(500, "Error creating subscription record")))
  {
  }

  /**
    `stripe.subscriptions.retrieve` failing during a subscription checkout is
    the exception the outer `catch` turns into a 500 "Webhook error: ..." reply;
    nothing has been written by then.
   */
  lemma CheckoutRetrieveFailureIsServerError(
    s: CheckoutSession, db: Db, retrieve: string -> Fetch, toIso: int -> string, now: string, fails: set<Op>)
    requires Truthy(s.customerEmail) && SingleUserId(db.users, s.customerEmail.value).Some?
    requires s.mode == "subscription" && Truthy(s.subscription) && retrieve(s.subscription.value).FetchFailed?
    ensures Handle(Signed(CheckoutSessionCompleted(s)), db, retrieve, toIso, now, fails)
            == (db, Response(500, "Webhook error: " + retrieve(s.subscription.value).reason))
  {
  }

  /** The same for an invoice: a failed retrieve answers 500 before any lookup or write. */
  lemma InvoiceRetrieveFailureIsServerError(
    inv: Invoice, db: Db, retrieve: string -> Fetch, toIso: int -> string, now: string, fails: set<Op>)
    requires Truthy(inv.subscription) && retrieve(inv.subscription.value).FetchFailed?
    ensures Handle(Signed(InvoicePaymentSucceeded(inv)), db, retrieve, toIso, now, fails)
            == (db, Response(500, "Webhook error: " + retrieve(inv.subscription.value).reason))
  {
  }

  /** A rejected payment insert stops the handler before any credit changes. */
  lemma PaymentRowPrecedesCredits(s: CheckoutSession, db: Db, retrieve: string -> Fetch, toIso: int -> string, now: string, fails: set<Op>)
    requires Truthy(s.customerEmail) && SingleUserId(db.users, s.customerEmail.value).Some?
    requires s.mode == "payment" && InsertPayment in fails
    ensures Handle(Signed(CheckoutSessionCompleted(s)), db, retrieve, toIso, now, fails) == (db, Response(500, "Error creating payment record"))
  {
  }

  /** A rejected credits write still leaves the payment row in place: the handler is not atomic. */
  lemma CreditFailureKeepsPaymentRow(s: CheckoutSession, db: Db, userId: string, retrieve: string -> Fetch, toIso: int -> string, now: string)
    requires Truthy(s.customerEmail) && SingleUserId(db.users, s.customerEmail.value) == Some(userId)
    requires s.mode == "payment" && s.amountTotal.Some? && s.amountTotal.value != 0
    ensures var r := Handle(Signed(CheckoutSessionCompleted(s)), db, retrieve, toIso, now, {UpdateCredits, InsertCredits});
            && r.1.status == 500
            && r.0.payments == db.payments + [OneTimePayment(userId, s)]
            && r.0.credits == db.credits
  {
  }

  /**
    An invoice of a known subscription, with no rejected write, refreshes status,
    period start, period end and the stamp of that subscription's rows only, and
    appends one "subscription" payment row after the existing ones.
   */
  lemma InvoiceRenewsSubscription(inv: Invoice, db: Db, sub: StripeSubscription, userId: string, retrieve: string -> Fetch, toIso: int -> string, now: string)
    requires Truthy(inv.subscription) && retrieve(inv.subscription.value) == Fetched(sub)
    requires SingleOwner(db.subscriptions, inv.subscription.value) == Some(userId)
    ensures var r := Handle(Signed(InvoicePaymentSucceeded(inv)), db, retrieve, toIso, now, {});
            && r.1 == Received
            && r.0.payments == db.payments + [PaymentRow(userId, inv.id, inv.amountPaid, inv.currency, "succeeded", "subscription", None)]
            && |r.0.subscriptions| == |db.subscriptions|
            && (forall i :: 0 <= i < |db.subscriptions| && db.subscriptions[i].subscriptionId == inv.subscription.value ==>
                  r.0.subscriptions[i] == db.subscriptions[i].(
                    status := sub.status, periodStart := Some(toIso(sub.periodStart)),
                    periodEnd := Some(toIso(sub.periodEnd)), updatedAt := Some(now)))
            && (forall i :: 0 <= i < |db.subscriptions| && db.subscriptions[i].subscriptionId != inv.subscription.value ==>
                  r.0.subscriptions[i] == db.subscriptions[i])
            && r.0.credits == db.credits && r.0.users == db.users
  {
  }

  /**
    The invoice handler is not atomic: a rejected subscription update answers 500
    with nothing written, while a rejected payment insert answers 500 after the
    rows were already refreshed.
   */
  lemma InvoiceFailuresAreNotAtomic(inv: Invoice, db: Db, sub: StripeSubscription, retrieve: string -> Fetch, toIso: int -> string, now: string)
    requires Truthy(inv.subscription) && retrieve(inv.subscription.value) == Fetched(sub)
    requires SingleOwner(db.subscriptions, inv.subscription.value).Some?
    ensures Handle(Signed(InvoicePaymentSucceeded(inv)), db, retrieve, toIso, now, {UpdateSubscription, InsertPayment})
            == (db, Response(500, "Error updating subscription"))
    ensures var r := Handle(Signed(InvoicePaymentSucceeded(inv)), db, retrieve, toIso, now, {InsertPayment});
            && r.1 == Response(500, "Error creating payment record")
            && r.0.payments == db.payments
            && (forall i :: 0 <= i < |db.subscriptions| && db.subscriptions[i].subscriptionId == inv.subscription.value ==>
                  r.0.subscriptions[i].status == sub.status && r.0.subscriptions[i].updatedAt == Some(now))
  {
  }

  /** An invoice of an unknown subscription answers 404 and writes nothing. */
  lemma InvoiceUnknownSubscription(inv: Invoice, db: Db, sub: StripeSubscription, retrieve: string -> Fetch, toIso: int -> string, now: string, fails: set<Op>)
    requires Truthy(inv.subscription) && retrieve(inv.subscription.value) == Fetched(sub)
    requires !HasSubscriptionId(db.subscriptions, inv.subscription.value)
    ensures Handle(Signed(InvoicePaymentSucceeded(inv)), db, retrieve, toIso, now, fails) == (db, Response(404, "Subscription not found"))
  {
  }

  /**
    `customer.subscription.updated` copies status, cancel flag and period end
    into the matching rows, stamps them, and changes nothing else.
   */
  lemma UpdatedEventCopiesFields(sub: StripeSubscription, db: Db, retrieve: string -> Fetch, toIso: int -> string, now: string)
    requires SingleOwner(db.subscriptions, sub.id).Some?
    ensures var r := Handle(Signed(CustomerSubscriptionUpdated(sub)), db, retrieve, toIso, now, {});
            && r.1 == Received
            && |r.0.subscriptions| == |db.subscriptions|
            && (forall i :: 0 <= i < |db.subscriptions| && db.subscriptions[i].subscriptionId == sub.id ==>
                  r.0.subscriptions[i] == db.subscriptions[i].(
                    status := sub.status, cancelAtPeriodEnd := Some(sub.cancelAtPeriodEnd),
                    periodEnd := Some(toIso(sub.periodEnd)), updatedAt := Some(now)))
            && (forall i :: 0 <= i < |db.subscriptions| && db.subscriptions[i].subscriptionId != sub.id ==>
                  r.0.subscriptions[i] == db.subscriptions[i])
            && r.0.(subscriptions := db.subscriptions) == db
  {
  }

  /** An id carried by two rows is refused by `.single()`: 404, nothing written. */
  lemma UpdatedEventDuplicateIdNotFound(sub: StripeSubscription, db: Db, i: int, j: int, retrieve: string -> Fetch,
                                        toIso: int -> string, now: string, fails: set<Op>)
    requires 0 <= i < j < |db.subscriptions|
    requires db.subscriptions[i].subscriptionId == sub.id && db.subscriptions[j].subscriptionId == sub.id
    ensures Handle(Signed(CustomerSubscriptionUpdated(sub)), db, retrieve, toIso, now, fails)
            == (db, Response(404, "Subscription not found"))
  {
  }

  /** `customer.subscription.deleted` sets "canceled" and the update stamp, and nothing else. */
  lemma DeletedEventOnlyCancels(sub: StripeSubscription, db: Db, retrieve: string -> Fetch, toIso: int -> string, now: string)
    ensures var r := Handle(Signed(CustomerSubscriptionDeleted(sub)), db, retrieve, toIso, now, {});
            && r.1 == Received
            && |r.0.subscriptions| == |db.subscriptions|
            && (forall i :: 0 <= i < |db.subscriptions| && db.subscriptions[i].subscriptionId == sub.id ==>
                  r.0.subscriptions[i] == db.subscriptions[i].(status := "canceled", updatedAt := Some(now)))
            && (forall i :: 0 <= i < |db.subscriptions| && db.subscriptions[i].subscriptionId != sub.id ==>
                  r.0.subscriptions[i] == db.subscriptions[i])
            && r.0.(subscriptions := db.subscriptions) == db
  {
  }

  // ---------------------------------------------------------------------------
  // What the handler's writes mean to `has_active_subscription`

  /** After a deletion event, a user whose every row carries the deleted id has no active subscription. */
  lemma DeletedSubscriptionIsInactive(
    sub: StripeSubscription, db: Db, userId: string, retrieve: string -> Fetch, toIso: int -> string,
    now: string, nowInstant: int, parse: string -> Option<int>)
    requires forall i :: 0 <= i < |db.subscriptions| && db.subscriptions[i].userId == userId ==>
               db.subscriptions[i].subscriptionId == sub.id
    ensures var r := Handle(Signed(CustomerSubscriptionDeleted(sub)), db, retrieve, toIso, now, {});
            !PaymentsDb.HasActiveSubscription(true, r.0, userId, nowInstant, parse)
  {
    var db' := Handle(Signed(CustomerSubscriptionDeleted(sub)), db, retrieve, toIso, now, {}).0;
    DeletedEventOnlyCancels(sub, db, retrieve, toIso, now);
    var latest := PaymentsDb.GetUserSubscription(true, db', userId);
    if latest.Some? {
      var i :| 0 <= i < |db'.subscriptions| && db'.subscriptions[i] == latest.value;
      assert db'.subscriptions[i].userId == db.subscriptions[i].userId;
    }
  }

  /**
    A completed subscription checkout whose retrieved subscription is "active"
    and runs past the current instant makes the customer subscribed, provided
    the ISO parse inverts `toIso` and the new row is the customer's latest.
   */
  lemma SubscriptionCheckoutActivates(
    s: CheckoutSession, db: Db, userId: string, sub: StripeSubscription, retrieve: string -> Fetch,
    toIso: int -> string, now: string, nowInstant: int, parse: string -> Option<int>)
    requires Truthy(s.customerEmail) && SingleUserId(db.users, s.customerEmail.value) == Some(userId)
    requires s.mode == "subscription" && Truthy(s.subscription) && retrieve(s.subscription.value) == Fetched(sub)
    requires sub.status == "active" && sub.periodEnd > nowInstant
    requires toIso(sub.periodEnd) != "" && parse(toIso(sub.periodEnd)) == Some(sub.periodEnd)
    requires forall x :: x in db.subscriptions && x.userId == userId ==> LexLt(PaymentsDb.CreatedKey(x), now)
    ensures var r := Handle(Signed(CheckoutSessionCompleted(s)), db, retrieve, toIso, now, {});
            r.1 == Received && PaymentsDb.HasActiveSubscription(true, r.0, userId, nowInstant, parse)
  {
    var row := NewSubscriptionRow(userId, s, s.subscription.value, sub, toIso, now);
    var db' := Handle(Signed(CheckoutSessionCompleted(s)), db, retrieve, toIso, now, {}).0;
    assert db'.subscriptions == db.subscriptions + [row];
    assert row in db'.subscriptions;
    assert PaymentsDb.GetUserSubscription(true, db', userId) == Some(row);
  }
}
